=== FILE: README.md ===
# Quiver SVG Viewer: a verified model of the renderer and the Slack rules

This project is a Dafny model of two parts of the Quiver SVG Viewer, a Slack
app that renders shared SVG files.

The first part is the animated-SVG path of `gif-renderer.js`:

- `isAnimatedSvg` classifies SVG text with seven case-insensitive pattern tests.
- `svgToGif` runs a headless browser, takes screenshots and feeds them to a GIF encoder.

The model computes the frame count, frame delay and clamped height in exact
integer arithmetic, which can differ from the source's doubles on exact
halves (see "## Left out"). It records every browser, decoder and encoder
call as an event trace. An environment decides which calls throw, what
height the page reports and what each capture decodes to. The imperative `Renderer.SvgToGif` is proved equal
to the reference run `Renderer.Expected`. The properties are then proved about
that reference run:

- counts and order of screenshots, waits and frames;
- encoder set-up from the first frame;
- exactly one browser close.

The second part is `slack.js`:

- the per-team client cache (`getClient`/`clearClient`) as a state machine over a `map`;
- the SVG filter and the `.svg` suffix rewrite;
- the `handleInteraction` dispatcher;
- the JavaScript `||` fallbacks for the zoom's team id and image URL;
- `handleFileShared` and `handleZoom` as call traces over an abstract Slack environment.

Modules, one concern each:

- `Wrappers`: `Option` and `Result`.
- `Text`: the `\s` class and the ASCII folding of the `i` flag.
- `Detector`: `isAnimatedSvg`.
- `FrameMath`: `Math.round` and the timing arithmetic.
- `GifEncoder`: the encoder's observable state.
- `RenderTrace`: events, the environment, and the "run until a call throws" semantics.
- `Renderer`: `svgToGif` and its reference run.
- `RenderProperties`: theorems about the reference run.
- `ClientCache`: the client cache.
- `SlackRules`: the pure rules.
- `SlackHandlers`: the handlers.

## What the code does not check

`svgToGif` trusts its arguments and its collaborators, and the model keeps
that:

- A zero or negative `durationMs` or `fps` is not guarded. With a frame count of zero, `PNG.sync.read(frames[0])` reads a missing frame and throws (`RenderProperties.NoFramesNoCapture`).
- The encoder checks neither the size of a frame nor whether the frame list is empty. Every decoded frame is added as it is.
- A failing capture is not wrapped. The run fails with whatever the call threw, and the model records which call that was.

## Model

| member | source | states |
|---|---|---|
| Detector.IsAnimatedSvg | gif-renderer.js:8-20 | true exactly when one of the seven markers occurs, ignoring ASCII case; false exactly when all seven tests fail |
| Detector.Search | gif-renderer.js:11-18 | one `/…/i.test(svg)`: true exactly when the marker's pattern matches at some position of the text |
| Detector.SkipSpaces | gif-renderer.js:17-18 | the `\s*` run before the colon: every skipped character is whitespace and the first one kept is not |
| Detector.MatchAtIsPattern | gif-renderer.js:17-18 | skipping all whitespace and then requiring `:` matches exactly when the backtracking `\s*:` pattern does |
| Detector.ClassificationIgnoresCase | gif-renderer.js:11-18 | an SVG and its lower-cased text are classified alike |
| Detector.PatternAtIgnoresCase | gif-renderer.js:11-18 | at every position, a pattern whose word has no upper-case letter matches the lower-cased text exactly when it matches the text |
| Detector.MarkerWordsAreLowerCase | gif-renderer.js:11-18 | the seven pattern words, as written here, have no upper-case letter; under the `i` flag `<animateTransform` and `<animatetransform` are the same pattern |
| Detector.AnimatedInAnyContext | gif-renderer.js:11-18 | text added before or after an animated SVG never makes it static |
| Detector.ClosedSetTagIsStatic | gif-renderer.js:14 | `<set>`, with `>` right after the tag name, matches none of the seven tests |
| Detector.SetTagWithSpaceIsAnimated | gif-renderer.js:14 | `<set` followed by whitespace is animated |
| Detector.AnimateTransformHasItsOwnTest | gif-renderer.js:11-12 | a `<animateTransform` match is not a plain `<animate[\s>]` match at that position, yet the text is classified animated |
| Detector.AnimationNameNeedsItsOwnTest | gif-renderer.js:17-18 | an `animation-name:` match is not an `animation\s*:` match at that position, yet the text is classified animated |
| Text.IsSpace | gif-renderer.js:11-18 | the characters `\s` matches in ECMAScript: the WhiteSpace and LineTerminator code points |
| Text.Lower | gif-renderer.js:11-18 | as far as these ASCII patterns can observe the `i` flag without `u`: only `A`..`Z` fold onto an ASCII letter, each onto its lower-case letter, and every other character is kept; the result is never an upper-case ASCII letter |
| Text.LowerAll | gif-renderer.js:11-18 | the folded text has the same length and is folded character by character |
| Text.LowerKeepsNonLetters | gif-renderer.js:11-18 | the `i` flag's folding is idempotent and keeps whitespace, `>` and `:` |
| FrameMath.RoundDiv | gif-renderer.js:31-32 | `Math.round` of an exact quotient: the result is within half a unit of `n/d`, with ties going up, for either sign of `d` |
| FrameMath.RoundDivUnique | gif-renderer.js:31-32 | for either sign of the divisor, only one integer satisfies that bracket |
| FrameMath.TotalFrames | gif-renderer.js:31 | the frame count is the duration times the rate over 1000, rounded half up; it is zero with a zero rate and never negative for non-negative inputs |
| FrameMath.FrameDelay | gif-renderer.js:32 | `1000/fps` rounded; `Infinity` (none) exactly when `fps` is 0; between 0 and 1000 ms for a positive rate |
| FrameMath.FramesNeedARate | gif-renderer.js:31-32 | a non-zero frame count implies a finite frame delay |
| FrameMath.CaptureHeight | gif-renderer.js:64 | the capture height is at least 100 and at least the measured height, and equals one of the two |
| FrameMath.DefaultTiming | gif-renderer.js:30-32 | 3000 ms at 10 fps gives 30 frames of 100 ms; 1000 ms at 5 fps gives 5 frames of 200 ms; 3 fps gives 333 ms |
| FrameMath.FrameCountRounding | gif-renderer.js:31 | half a frame rounds up, less than half rounds down; 290 ms at 50 fps gives 15 frames in exact arithmetic |
| GifEncoder.New | gif-renderer.js:79 | a new encoder has the given size, no setting, no frame, and is neither started nor finished |
| GifEncoder.SetDelay | gif-renderer.js:80 | records the frame delay and changes no other field |
| GifEncoder.SetRepeat | gif-renderer.js:81 | records the repeat count and changes no other field |
| GifEncoder.SetQuality | gif-renderer.js:82 | records the quality and changes no other field |
| GifEncoder.Start | gif-renderer.js:83 | marks the encoder started and changes no other field |
| GifEncoder.AddFrame | gif-renderer.js:87 | appends one frame's pixels after the frames already held, which are kept, and changes no other field |
| GifEncoder.Finish | gif-renderer.js:90 | marks the encoder finished and changes no other field |
| RenderTrace.Throws | gif-renderer.js:34-93 | which calls can throw: the timer and the encoder's constructor and setters never do; a decode throws exactly when the capture does not decode; reading `frames[0]` with no frame always does; any other call as the environment decides |
| RenderTrace.Attempt | gif-renderer.js:43-91 | the calls made in an `await` sequence: a prefix of the plan; all of it when nothing throws; otherwise it ends at the first call that throws |
| RenderTrace.AttemptStopsAt | gif-renderer.js:43-91 | the attempt ends exactly at the first throwing call |
| RenderTrace.AttemptClosedOnce | gif-renderer.js:43-94 | a plan that never closes, framed by launch and the `finally` close, closes exactly once however far the attempt got |
| RenderTrace.CaptureShots | gif-renderer.js:69-75 | the capture loop for n frames takes screenshots 0..n-1, in order |
| RenderTrace.CaptureWaits | gif-renderer.js:69-75 | the capture loop for n frames waits the frame delay n-1 times, between screenshots only |
| RenderTrace.FeedingAdds | gif-renderer.js:85-88 | the encoding loop adds frames 0..n-1, in order |
| RenderTrace.FeedingSkips | gif-renderer.js:85-88 | the encoding loop takes no screenshot, waits for nothing and never closes the browser |
| RenderTrace.SelectConcat | gif-renderer.js:43-94 | a projection of a trace distributes over concatenation |
| Renderer.PlanNeedsFrames | gif-renderer.js:68-78 | a plan that throws nowhere needs at least one frame: with no frames, reading `frames[0]` throws |
| Renderer.Defaults | gif-renderer.js:30 | the default arguments: width 1024, 3000 ms, 10 fps |
| Renderer.Plan | gif-renderer.js:44-90 | the reference calls of the `try` block, supposing none throws: page set-up, the capture loop, the encoder set-up, decoding and adding each frame, finish; with no frame, the set-up followed by the read of the missing first frame |
| Renderer.Expected | gif-renderer.js:34-94 | the reference run: launch; if it succeeds, the planned calls up to the first that throws and then close; the result is the finished encoder, the throwing call, or close when close throws |
| Renderer.PlanLayout | gif-renderer.js:56-90 | where each part of the planned calls sits: page set-up, capture loop, encoder set-up, feeding, finish |
| Renderer.PreparePage | gif-renderer.js:44-65 | the page set-up calls are made in plan order (new page, square viewport, content, height, clamped viewport), stopping at the first that throws |
| Renderer.CaptureFrames | gif-renderer.js:68-75 | the loop takes screenshots 0..n-1 with a wait after each but the last, and stops at the first call that throws |
| Renderer.StartEncoder | gif-renderer.js:78-83 | decode frame 0, create the encoder on its size, set delay, repeat 0 and quality 10, start; a decode error is reported as the failing call |
| Renderer.ConfigureEncoder | gif-renderer.js:79-83 | the encoder is created on the first capture's size, gets the frame delay, repeat 0 and quality 10, and is started, still holding no frame |
| Renderer.FeedFrame | gif-renderer.js:85-87 | one round decodes capture j and adds it, after which the encoder holds captures 0..j; a decode or add that throws ends the attempt there |
| Renderer.FeedFrames | gif-renderer.js:85-90 | every frame is decoded again and added in capture order, then the encoder is finished |
| Renderer.RenderPage | gif-renderer.js:43-91 | the `try` block makes exactly the reference calls and ends with the reference outcome |
| Renderer.SvgToGif | gif-renderer.js:30-95 | the whole function equals the reference run: launch, the `try` block, and `close` in `finally`, where a close error replaces the block's outcome |
| RenderProperties.PlanHasNoClose | gif-renderer.js:43-91 | nothing inside the `try` block closes the browser |
| RenderProperties.CloseExactlyOnce | gif-renderer.js:34-94 | the run starts with launch; if launch throws, nothing else happens and close is never called; otherwise close is called exactly once, as the last call |
| RenderProperties.FailureStopsAtThrowingCall | gif-renderer.js:43-94 | a failed run reports a call that threw: launch, with nothing after it; close; or the second-to-last call, with only close after it and every earlier call having succeeded |
| RenderProperties.SuccessMeansCompleted | gif-renderer.js:43-94 | a successful run made every planned call, with none of them throwing and with at least one frame |
| RenderProperties.SuccessfulRun | gif-renderer.js:56-78 | a successful run: launch, plan and close with no throw; the first viewport is square, the second keeps the width with the clamped height; the first decode follows the capture loop |
| RenderProperties.SuccessfulCaptureOrder | gif-renderer.js:69-75 | screenshots 0..n-1 sit at alternate positions, with a wait of the frame delay between consecutive ones |
| RenderProperties.SuccessfulRunCounts | gif-renderer.js:69-88 | a successful run takes screenshots 0..n-1 in order, waits n-1 times for the frame delay, and adds frames 0..n-1 in order |
| RenderProperties.SuccessfulEncoding | gif-renderer.js:78-91 | the GIF has the first frame's size, the frame delay, repeat 0, quality 10, is started and finished, and holds exactly the decoded captures in order |
| RenderProperties.DefaultRunShape | gif-renderer.js:30-32 | with the defaults, a successful run takes 30 screenshots and waits 29 times for 100 ms |
| RenderProperties.PlanRegions | gif-renderer.js:68-88 | screenshots come only from the capture part and frame additions only from the encoding part, so every screenshot precedes every addition |
| RenderProperties.CaptureFailureEncodesNothing | gif-renderer.js:68-88 | when a screenshot throws, no frame has been added to the encoder |
| RenderProperties.NoFramesNoCapture | gif-renderer.js:68-78 | with a frame count of zero or less there is no screenshot, no wait and no frame added, and the run fails; when launch, page set-up and close all succeed it fails at the read of the missing first frame |
| ClientCache.GetClient | slack.js:8-15 | a client comes back exactly when the team is cached or stored; it is then cached; the cache gains at most that key and keeps every entry; a newly built client carries the stored token |
| ClientCache.ClearClient | slack.js:18-20 | removes that team's key and keeps every other entry |
| ClientCache.HitIgnoresStore | slack.js:9 | a cache hit answers with the cached client whatever the store holds, and leaves the cache alone |
| ClientCache.UnknownTeamChangesNothing | slack.js:10-11 | an uncached team the store does not know gives null and no change |
| ClientCache.SecondCallSameClient | slack.js:9-14 | asking again returns the same client and the same cache, whatever the store holds by then |
| ClientCache.ClearIdempotent | slack.js:18-20 | clearing twice is clearing once |
| ClientCache.ClearThenGetRebuilds | slack.js:8-20 | after a clear, the next lookup is answered from the store |
| ClientCache.LookupKeepsTokensCurrent | slack.js:8-15 | lookups keep every cached client's token equal to the stored one |
| ClientCache.ClearKeepsTokensCurrent | slack.js:18-20 | so do clears |
| ClientCache.ReinstallAsWritten | auth.js:61-67 | the reinstall as the OAuth callback performs it: the stored token is replaced and the cache is untouched |
| ClientCache.ReinstallAsWrittenServesStaleToken | slack.js:17-20 | after such a reinstall a previously served team keeps getting the old token, and the cache is out of step with the store |
| ClientCache.Reinstall | slack.js:17-20 | the reinstall with the cache cleared for that team |
| ClientCache.ReinstallKeepsTokensCurrent | slack.js:17-20 | with the clear, the cache stays in step with the store and the next lookup gets the new token |
| SlackRules.SkipsFile | slack.js:56-58 | the handler skips a file exactly when its MIME type is not the SVG type and its name is missing or does not end in lower-case `.svg` |
| SlackRules.IsSvgFile | slack.js:56 | a file is treated as SVG when its MIME type is exactly `image/svg+xml` or its name ends in lower-case `.svg` |
| SlackRules.ReplaceSvgSuffix | slack.js:72 | a final `.svg` in any case is replaced and everything before it is kept; any other name is unchanged |
| SlackRules.PreviewName | slack.js:72 | a name ending in `.svg` in any letter case becomes its stem followed by `_preview.png`; any other name is unchanged |
| SlackRules.ZoomName | slack.js:143 | a name ending in `.svg` in any letter case becomes its stem followed by `_zoom.png`; any other name is unchanged |
| SlackRules.RewriteKeepsStem | slack.js:72 | a stem followed by `.svg` in any letter case becomes the stem followed by the replacement |
| SlackRules.RewriteIdempotent | slack.js:72 | rewriting a rewritten name changes nothing when the replacement does not itself end in `.svg` |
| SlackRules.PreviewAndZoomIdempotent | slack.js:72-143 | so the preview and zoom renames are idempotent |
| SlackRules.AcceptedNamesAreRewritten | slack.js:56-72 | every name that the filter accepts by its suffix gets renamed |
| SlackRules.UpperCaseSuffix | slack.js:56-72 | `LOGO.SVG` without the SVG MIME type is skipped by the case-sensitive filter; with that MIME type it is processed and renamed `LOGO_preview.png` |
| SlackRules.Truthy | slack.js:74 | JavaScript truthiness of a possibly missing string: present and non-empty |
| SlackRules.OnlyFinalSuffix | slack.js:72 | `a.svg.svg` becomes `a.svg_preview.png`; `a.svg.png` and `svg` are unchanged |
| SlackRules.Or | slack.js:149-152 | `a \|\| b` is one of its operands; it is truthy exactly when one operand is; a truthy left operand wins |
| SlackRules.TeamIdOf | slack.js:126 | `payload.team?.id`: missing when the payload has no team |
| SlackRules.UserTeamIdOf | slack.js:126 | `payload.user?.team_id`: missing when the payload has no user |
| SlackRules.FirstTruthy | slack.js:149-152 | a chain of `\|\|` gives the first truthy operand, or the last operand when none is truthy |
| SlackRules.OrChain | slack.js:149-152 | the left-grouped chain equals the right-grouped chain and the first-truthy value |
| SlackRules.ZoomTeamId | slack.js:126 | the payload's team id when truthy, else the user's team id |
| SlackRules.NestedUrl | slack.js:150 | `upload.files?.[0]?.files?.[0]?.url_private`: missing when either list is missing or empty |
| SlackRules.FileUrl | slack.js:151 | `upload.file?.url_private`: missing when there is no file |
| SlackRules.ImageUrl | slack.js:149-152 | never empty: the nested upload URL if truthy, else the file URL if truthy, else the placeholder |
| SlackRules.ImageUrlIsFirstTruthy | slack.js:149-152 | the image URL is the first truthy value of the three-way chain |
| SlackRules.ImageUrlExamples | slack.js:149-152 | no URL gives the placeholder; an empty nested URL loses to the file URL |
| SlackHandlers.AttemptCalls | slack.js:51-111 | the awaited calls of a `try` block: a prefix of the plan; all of it when nothing throws; otherwise it ends at the first call that throws |
| SlackHandlers.ThreadTs | slack.js:74 | `event_ts \|\| undefined`: the timestamp when truthy, otherwise none |
| SlackHandlers.PreviewSteps | slack.js:62-106 | after the filter: the fetch with the stored token and the render of that file at 1024, then, when the file has a name, the upload renamed with `_preview.png` into the thread and the message whose buttons carry the file's URL and id; without a name, `file.name.replace` throws and the plan ends after the render |
| SlackHandlers.HandleFileShared | slack.js:42-112 | the cache ends as the lookup leaves it; no client exactly when the team is neither cached nor stored, and then no call; otherwise `files.info` comes first with the client's token; once it returns a file, the handler stops there exactly when the file is not an SVG; the preview is posted exactly when the file is a named SVG, the team is stored and every later call goes through; any other end is the catch; once `files.info` returns an SVG and the team is stored, the calls are `files.info` followed by the fetch, render, upload and message up to the first that throws, so a preview can be uploaded before `chat.postMessage` fails; on every other path after the lookup only `files.info` is called |
| SlackHandlers.PreviewWithClient | slack.js:51-111 | the `try` block once a client was found: `files.info` first; a non-SVG stops there; an SVG of a stored team goes on through the preview steps up to the first that throws; the preview is posted exactly when everything goes through; any other end is the catch, after `files.info` alone |
| SlackHandlers.PreviewPosted | slack.js:52-106 | a completed preview makes exactly `files.info`, the fetch with the stored token, the render at 1024, the upload renamed with `_preview.png` into the event's thread, and the message whose buttons carry the file's URL and id |
| SlackHandlers.FileSharedShape | slack.js:52-106 | whenever a shared-file run makes more than one call, the client was found, the file was returned and the team is stored, and the calls are `files.info` followed by the preview steps up to the first that throws |
| SlackHandlers.UploadIsRenamed | slack.js:56-75 | any preview upload is of an SVG file and is named with `_preview.png` in place of its suffix |
| SlackHandlers.CurrentTokenThroughout | slack.js:43-62 | with the cache in step with the store, every call authenticates with the team's stored token |
| SlackHandlers.StaleClientMixesTokens | slack.js:43-62 | after a reinstall that does not clear the cache, `files.info` goes out with the old token while the fetch uses the new one |
| SlackHandlers.ZoomSteps | slack.js:136-178 | after `files.info`: the fetch with the stored token and the render of that file at 2048, then, when the payload has a user and the file a name, the upload renamed with `_zoom.png` to the user and the modal with the image URL taken from that upload's own response; otherwise the plan ends after the render, where the source throws |
| SlackHandlers.HandleZoom | slack.js:125-182 | the team comes from the fallback chain; the cache ends as the lookup leaves it; with a team id, no client exactly when the lookup finds none; the modal is opened exactly when a client is found and every call goes through with a named file and a user; a completed zoom makes five calls and shows the non-empty image URL of its own upload; the calls on the other paths are those of `ZoomShape` |
| SlackHandlers.ZoomForTeam | slack.js:127-181 | the cache ends as the lookup leaves it; the zoom stops with no call exactly when the lookup finds no client; it completes exactly when a client is found and every call goes through; once a client is found, `files.info` returns a file and the team is stored, the calls are `files.info` followed by the zoom steps up to the first that throws, and otherwise `files.info` alone; the outcome is never the shared-file filter's |
| SlackHandlers.ZoomWithClient | slack.js:130-181 | `files.info` comes first with the client's token; the zoom completes exactly when `files.info` returns a named file, the payload has a user, the team is stored and the fetch, render, upload and modal go through, and every other end is the catch; when `files.info` returns a file and the team is stored, the calls are `files.info` followed by the fetch, render, upload and modal up to the first that throws, so a failing `views.open` comes after the upload; otherwise `files.info` is the only call; a completed zoom's modal carries the trigger id, the image URL of its own upload and the file's URL |
| SlackHandlers.ZoomShape | slack.js:130-154 | whenever a zoom makes more than one call, a team id and a client were found, the file was returned and the team is stored, and the calls are `files.info` followed by the fetch, render, upload and modal up to the first that throws |
| SlackHandlers.ZoomUploadsToUser | slack.js:136-145 | a completed zoom uploads the file, renamed with `_zoom.png`, to the user who clicked |
| SlackHandlers.ZoomValues | slack.js:116-121 | the values of the `zoom_svg` actions in array order, at most one per action |
| SlackHandlers.ZoomValuesConcat | slack.js:116-121 | the dispatched values of two action lists are those of each, in order |
| SlackHandlers.ZoomValuesAreZoomActions | slack.js:116-121 | a value is dispatched exactly when some `zoom_svg` action carries it |
| SlackHandlers.NoZoomActionNoDispatch | slack.js:116-121 | without `zoom_svg` actions nothing is dispatched |
| SlackHandlers.ZoomEach | slack.js:116-121 | the `for … of` loop over the zoom values: each `handleZoom` in turn, the cache threaded from one to the next and the calls concatenated |
| SlackHandlers.Interact | slack.js:114-123 | the reference `handleInteraction`: other payload types do nothing; a missing action list throws; otherwise one zoom per `zoom_svg` value in order, the cache threaded through |
| SlackHandlers.ZoomEachCache | slack.js:116-127 | a sequence of zooms keeps every cached client and adds at most the zoom team's |
| SlackHandlers.HandleInteraction | slack.js:114-123 | the loop equals the reference dispatch: other payload types are ignored, a missing action list throws, and each `zoom_svg` action is zoomed in array order with its value |
| SlackHandlers.OtherPayloadsIgnored | slack.js:115 | a payload whose type is not `block_actions` changes nothing and makes no call |
| SlackHandlers.InteractionCache | slack.js:114-127 | an interaction keeps every cached client and adds at most one, for the zoom's team |

## Left out

- Browser internals: launch flags, `setContent` waiting for `networkidle0`, how the page measures its height, and real timer delays. Each is one trace event. The environment decides whether it throws, and it supplies the measured height.
- The HTML page and its base64 data URL are not modelled. `SetContent` carries the SVG text.
- RenderTrace.Env: whether a browser call throws depends on the call and its arguments only, not on when it is made. Two identical calls fail alike. A square SVG at width 1024 measures 1024 high, so both `setViewport` calls are the same event, and the model cannot have the first succeed and the second throw. No proved property depends on this.
- SlackHandlers.SlackEnv: whether a Slack call, fetch or render throws depends on the call and its arguments only, so two identical calls fail alike. A render stands for `svgToPng` of the fetched SVG and is keyed by the file's URL and the width, not by the SVG's bytes: two renders of the same URL at one width fail alike. `files.info` reports the same file for the same id every time. Each zoom upload has its own response, keyed by the upload call, so two identical uploads (same user, same name, same token) resolve to the same response.
- PNG decoding (`pngjs`) is an environment function from capture index to image. GIF byte encoding (`gif-encoder-2`) is not modelled: NeuQuant, LZW, the GIF89a blocks, the Netscape loop extension and the millisecond-to-hundredths conversion. The encoder is the record of its settings and the frames added. The output buffer is that record.
- FrameMath.TotalFrames: `durationMs`, `fps` and the measured height are integers, and the arithmetic is exact. The source computes in doubles, and non-integer or non-finite arguments are not modelled.
- FrameMath.TotalFrames: exact arithmetic differs from the source's doubles on some exact halves. `(290 / 1000) * 50` is 14.499999999999998 as a double, so the source takes 14 frames where the model takes 15. 1025 ms at 60 fps gives 61 against 62 in the same way. The model's count is the mathematical one.
- Detector.IsAnimatedSvg: the buffer's UTF-8 decoding is not modelled. The classifier works on the decoded text. Characters are code points rather than UTF-16 code units, which changes nothing for these ASCII patterns.
- `svgToPng` (resvg) and `fetchSvgFile` (HTTP) are single events that may throw. Rendering and fetching themselves are not modelled, and neither is the URL encoding of the Quiver link.
- Slack Web API calls (`files.info`, `files.uploadV2`, `chat.postMessage`, `views.open`) are events that may throw. Their request bodies are reduced to the fields the rules decide: channel, thread, file name, token, button value, image URL. The Block Kit JSON and log lines are left out.
- SlackHandlers.HandleZoom: when neither the payload nor the user has a team id, `getClient(undefined)` passes `undefined` to the prepared statement. What the SQLite driver does with it is not modelled. The zoom ends with no call and no cache change (outcome `NoTeamId`).
- SlackHandlers.HandleInteraction: a `handleZoom` that rejects would stop the loop. Rejection can come only from the database driver outside the `try`, and the model treats zooms as never rejecting.
- The team id given to `handleFileShared` is a string. An event without `team_id` is not modelled.
- `auth.js`, `db.js`, `verify.js` and `app.js` are not part of this model: OAuth, SQL, request signing and HTTP routing. The team store is a map from team id to bot token. The upsert of `auth.js` appears only as the store update in `ClientCache.ReinstallAsWritten`.
- The asynchronous interleaving of handlers is not modelled. `app.js` does not await `handleFileShared`, so two events could share the cache concurrently. Each handler runs atomically over the cache here.

## Findings

| source | as written | input that shows it | evidently intended | confidence | as-written member | corrected member |
|---|---|---|---|---|---|---|
| slack.js:17-20, auth.js:61-67 | `clearClient` is exported "to invalidate the cache on reinstall", but the OAuth callback only upserts the new token and never calls it. A team that was served before keeps its cached client with the old token. `handleFileShared` then calls `files.info` with the old token and fetches with the new one. | team `T1` cached with `xoxb-old`, reinstalled with `xoxb-new` | the reinstall clears the team's cached client, so the next lookup builds one from the new token | medium; not executed | ClientCache.ReinstallAsWrittenServesStaleToken | ClientCache.ReinstallKeepsTokensCurrent |

=== FILE: client_cache.dfy ===
/** The per-team Slack client cache of `slack.js`: a map from team id to a
    client built from the team's bot token, filled on demand from the team
    store. */
module ClientCache {
  import opened Wrappers

  type TeamId = string

  /** A row of the `teams` table, as far as the cache uses it. */
  datatype Team = Team(botToken: string)

  /** A `WebClient`, identified by the token it was built with. */
  datatype Client = Client(token: string)

  type Cache = map<TeamId, Client>

  /** The `teams` table, keyed by team id (its primary key). */
  type Store = map<TeamId, Team>

  /** The cache after a lookup, and the client handed back (`None` for the
      source's `null`). */
  datatype Lookup = Lookup(cache: Cache, client: Option<Client>)

  /** `getClient`: answer from the cache when the team is there; otherwise
      build a client from the stored token and remember it; `null` when the
      store does not know the team. */
  function GetClient(cache: Cache, store: Store, id: TeamId): (r: Lookup)
    ensures r.client.Some? <==> id in cache || id in store
    ensures r.client.Some? ==> id in r.cache && r.cache[id] == r.client.value
    ensures r.cache.Keys == if r.client.Some? then cache.Keys + {id} else cache.Keys
    ensures forall k :: k in cache ==> k in r.cache && r.cache[k] == cache[k]
    ensures id !in cache && r.client.Some? ==> r.client.value.token == store[id].botToken
  {
    if id in cache then Lookup(cache, Some(cache[id]))
    else if id !in store then Lookup(cache, None)
    else
      var client := Client(store[id].botToken);
      Lookup(cache[id := client], Some(client))
  }

  /** `clearClient`: forget the team's client. */
  function ClearClient(cache: Cache, id: TeamId): (r: Cache)
    ensures r.Keys == cache.Keys - {id}
    ensures forall k :: k in r ==> r[k] == cache[k]
  {
    cache - {id}
  }

  /** Every cached client carries the token the store currently holds for
      its team. */
  ghost predicate TokensCurrent(cache: Cache, store: Store) {
    forall k :: k in cache ==> k in store && cache[k].token == store[k].botToken
  }

  /** A cache hit answers without looking at the store at all. */
  lemma HitIgnoresStore(cache: Cache, store: Store, other: Store, id: TeamId)
    requires id in cache
    ensures GetClient(cache, store, id) == GetClient(cache, other, id) == Lookup(cache, Some(cache[id]))
  {
  }

  /** A miss on a team the store does not know changes nothing. */
  lemma UnknownTeamChangesNothing(cache: Cache, store: Store, id: TeamId)
    requires id !in cache && id !in store
    ensures GetClient(cache, store, id) == Lookup(cache, None)
  {
  }

  /** Once a client was handed out, asking again returns that same client
      and leaves the cache alone, whatever the store says by then. */
  lemma SecondCallSameClient(cache: Cache, store: Store, later: Store, id: TeamId)
    requires GetClient(cache, store, id).client.Some?
    ensures var first := GetClient(cache, store, id);
      GetClient(first.cache, later, id) == first
  {
  }

  /** Clearing twice is clearing once. */
  lemma ClearIdempotent(cache: Cache, id: TeamId)
    ensures ClearClient(ClearClient(cache, id), id) == ClearClient(cache, id)
  {
  }

  /** After a clear, the next lookup goes back to the store. */
  lemma ClearThenGetRebuilds(cache: Cache, store: Store, id: TeamId)
    ensures var r := GetClient(ClearClient(cache, id), store, id);
      && (r.client.Some? <==> id in store)
      && (id in store ==> r.client == Some(Client(store[id].botToken)))
  {
  }

  /** Lookups and clears keep the cache in step with the store. */
  lemma LookupKeepsTokensCurrent(cache: Cache, store: Store, id: TeamId)
    requires TokensCurrent(cache, store)
    ensures TokensCurrent(GetClient(cache, store, id).cache, store)
    ensures GetClient(cache, store, id).client.Some? ==>
      GetClient(cache, store, id).client.value.token == store[id].botToken
  {
  }

  lemma ClearKeepsTokensCurrent(cache: Cache, store: Store, id: TeamId)
    requires TokensCurrent(cache, store)
    ensures TokensCurrent(ClearClient(cache, id), store)
  {
  }

  /** A reinstall as the OAuth callback performs it: the store row is
      upserted with the new token and the cache is not touched. */
  function ReinstallAsWritten(cache: Cache, store: Store, id: TeamId, team: Team): (r: (Cache, Store))
    ensures r.0 == cache
    ensures r.1.Keys == store.Keys + {id} && r.1[id] == team
    ensures forall k :: k in store && k != id ==> r.1[k] == store[k]
  {
    (cache, store[id := team])
  }

  /** The reinstall the "Invalidate cache on reinstall" comment asks for:
      upsert, then clear the team's client. */
  function Reinstall(cache: Cache, store: Store, id: TeamId, team: Team): (r: (Cache, Store))
    ensures id !in r.0 && r.0.Keys == cache.Keys - {id}
    ensures r.1.Keys == store.Keys + {id} && r.1[id] == team
    ensures forall k :: k in store && k != id ==> r.1[k] == store[k]
  {
    (ClearClient(cache, id), store[id := team])
  }

  /** As written, a team that was served before a reinstall keeps being
      served a client with the old token. */
  lemma ReinstallAsWrittenServesStaleToken()
    ensures var id, cache, store := "T1", map["T1" := Client("xoxb-old")], map["T1" := Team("xoxb-old")];
      && TokensCurrent(cache, store)
      && var (c, s) := ReinstallAsWritten(cache, store, id, Team("xoxb-new"));
      && GetClient(c, s, id).client == Some(Client("xoxb-old"))
      && !TokensCurrent(c, s)
  {
    var (c, s) := ReinstallAsWritten(map["T1" := Client("xoxb-old")], map["T1" := Team("xoxb-old")], "T1", Team("xoxb-new"));
    assert s["T1"].botToken == "xoxb-new";
    assert "xoxb-old" != "xoxb-new" by { assert "xoxb-old"[5] != "xoxb-new"[5]; }
  }

  /** With the clear, a reinstall keeps the cache in step with the store,
      and the next lookup hands out a client with the new token. */
  lemma ReinstallKeepsTokensCurrent(cache: Cache, store: Store, id: TeamId, team: Team)
    requires TokensCurrent(cache, store)
    ensures var (c, s) := Reinstall(cache, store, id, team);
      && TokensCurrent(c, s)
      && GetClient(c, s, id).client == Some(Client(team.botToken))
  {
  }
}

=== FILE: detector.dfy ===
/** The animation classifier `isAnimatedSvg`: seven case-insensitive
    pattern tests over the decoded SVG text, tried in source order. */
module Detector {
  import opened Text

  /** What a marker needs right after its word. */
  datatype Tail =
    | SpaceOrGt        // `[\s>]`
    | Space            // `\s`
    | Nothing          // the word alone
    | SpacesThenColon  // `\s*:`

  /** One pattern: a lower-case word followed by a tail. */
  datatype Marker = Marker(word: string, tail: Tail)

  const AnimateTag := Marker("<animate", SpaceOrGt)
  const AnimateTransformTag := Marker("<animatetransform", SpaceOrGt)
  const AnimateMotionTag := Marker("<animatemotion", SpaceOrGt)
  const SetTag := Marker("<set", Space)
  const KeyframesRule := Marker("@keyframes", Nothing)
  const AnimationProperty := Marker("animation", SpacesThenColon)
  const AnimationNameProperty := Marker("animation-name", SpacesThenColon)

  /** The seven tests, in the order the source tries them. */
  const Markers: seq<Marker> := [
    AnimateTag, AnimateTransformTag, AnimateMotionTag, SetTag,
    KeyframesRule, AnimationProperty, AnimationNameProperty
  ]

  /** `w` occurs at position `i` of `s`, ignoring ASCII case. */
  predicate WordAt(s: string, i: int, w: string) {
    0 <= i && i + |w| <= |s| && forall k :: 0 <= k < |w| ==> Lower(s[i + k]) == w[k]
  }

  /** The regular expression's meaning: `m` matches starting at `i`, where
      `\s*` may consume any run of whitespace before the colon. */
  ghost predicate PatternAt(s: string, i: int, m: Marker) {
    WordAt(s, i, m.word) &&
    var j := i + |m.word|;
    match m.tail
    case SpaceOrGt => j < |s| && (IsSpace(s[j]) || s[j] == '>')
    case Space => j < |s| && IsSpace(s[j])
    case Nothing => true
    case SpacesThenColon =>
      exists e :: j <= e < |s| && s[e] == ':' && forall k :: j <= k < e ==> IsSpace(s[k])
  }

  /** The pattern test `/…/i.test(svg)`. */
  ghost predicate Test(s: string, m: Marker) {
    exists i :: PatternAt(s, i, m)
  }

  /** The classifier's promise: some marker of the seven occurs. */
  ghost predicate HasAnimationMarker(s: string) {
    exists m :: m in Markers && Test(s, m)
  }

  /** First position at or after `j` that is not whitespace, or `|s|`. */
  function SkipSpaces(s: string, j: nat): (e: nat)
    requires j <= |s|
    ensures j <= e <= |s|
    ensures forall k :: j <= k < e ==> IsSpace(s[k])
    ensures e == |s| || !IsSpace(s[e])
    decreases |s| - j
  {
    if j == |s| || !IsSpace(s[j]) then j else SkipSpaces(s, j + 1)
  }

  /** Executable match at one position: the backtracking of `\s*:` is
      replaced by skipping all whitespace, which is exact because `:` is
      not whitespace. */
  predicate MatchAt(s: string, i: nat, m: Marker) {
    WordAt(s, i, m.word) &&
    var j := i + |m.word|;
    match m.tail
    case SpaceOrGt => j < |s| && (IsSpace(s[j]) || s[j] == '>')
    case Space => j < |s| && IsSpace(s[j])
    case Nothing => true
    case SpacesThenColon => var e := SkipSpaces(s, j); e < |s| && s[e] == ':'
  }

  lemma MatchAtIsPattern(s: string, i: nat, m: Marker)
    ensures MatchAt(s, i, m) <==> PatternAt(s, i, m)
  {
    if m.tail.SpacesThenColon? && WordAt(s, i, m.word) {
      var j := i + |m.word|;
      var e0 := SkipSpaces(s, j);
      if PatternAt(s, i, m) {
        var e :| j <= e < |s| && s[e] == ':' && forall k :: j <= k < e ==> IsSpace(s[k]);
        assert !IsSpace(s[e]);
      }
      if MatchAt(s, i, m) {
        assert j <= e0 < |s| && s[e0] == ':';
      }
    }
  }

  /** Scan for `m` as the regular-expression engine does: try every start
      position from the left. */
  method Search(s: string, m: Marker) returns (found: bool)
    requires |m.word| > 0
    ensures found <==> Test(s, m)
  {
    var i := 0;
    while i < |s|
      invariant 0 <= i <= |s|
      invariant forall k :: 0 <= k < i ==> !MatchAt(s, k, m)
    {
      if MatchAt(s, i, m) {
        MatchAtIsPattern(s, i, m);
        return true;
      }
      i := i + 1;
    }
    if Test(s, m) {
      var k :| PatternAt(s, k, m);
      MatchAtIsPattern(s, k, m);
      assert false;
    }
    return false;
  }

  /** `isAnimatedSvg` on the decoded text: the seven tests in order, the
      first that matches answers true. */
  method IsAnimatedSvg(svg: string) returns (animated: bool)
    ensures animated <==> HasAnimationMarker(svg)
    ensures !animated <==> forall k :: 0 <= k < |Markers| ==> !Test(svg, Markers[k])
  {
    var k := 0;
    while k < |Markers|
      invariant 0 <= k <= |Markers|
      invariant forall j :: 0 <= j < k ==> !Test(svg, Markers[j])
    {
      var hit := Search(svg, Markers[k]);
      if hit {
        return true;
      }
      k := k + 1;
    }
    return false;
  }

  /** Position-wise: folding the whole text does not change any match. */
  lemma PatternAtIgnoresCase(s: string, i: int, m: Marker)
    requires forall k :: 0 <= k < |m.word| ==> !IsAsciiUpper(m.word[k])
    ensures PatternAt(LowerAll(s), i, m) <==> PatternAt(s, i, m)
  {
    var t := LowerAll(s);
    forall k | 0 <= k < |s|
      ensures Lower(t[k]) == Lower(s[k])
      ensures IsSpace(t[k]) <==> IsSpace(s[k])
      ensures t[k] == '>' <==> s[k] == '>'
      ensures t[k] == ':' <==> s[k] == ':'
    {
      LowerKeepsNonLetters(s[k]);
    }
    if m.tail.SpacesThenColon? && WordAt(s, i, m.word) {
      var j := i + |m.word|;
      if PatternAt(s, i, m) {
        var e :| j <= e < |s| && s[e] == ':' && forall k :: j <= k < e ==> IsSpace(s[k]);
        assert t[e] == ':' && forall k :: j <= k < e ==> IsSpace(t[k]);
      }
      if PatternAt(t, i, m) {
        var e :| j <= e < |t| && t[e] == ':' && forall k :: j <= k < e ==> IsSpace(t[k]);
        assert s[e] == ':' && forall k :: j <= k < e ==> IsSpace(s[k]);
      }
    }
  }

  /** Every marker word is written in lower case. */
  lemma MarkerWordsAreLowerCase(m: Marker)
    requires m in Markers
    ensures forall k :: 0 <= k < |m.word| ==> !IsAsciiUpper(m.word[k])
  {
    var w := m.word;
    assert w == Markers[0].word || w == Markers[1].word || w == Markers[2].word || w == Markers[3].word
        || w == Markers[4].word || w == Markers[5].word || w == Markers[6].word;
    if w == "<animatetransform" {
    } else if w == "<animatemotion" {
    } else if w == "animation-name" {
    } else {
    }
  }

  /** The classification is case-insensitive: an SVG and its ASCII
      lower-cased form are classified alike. */
  lemma ClassificationIgnoresCase(svg: string)
    ensures HasAnimationMarker(LowerAll(svg)) <==> HasAnimationMarker(svg)
  {
    var t := LowerAll(svg);
    if HasAnimationMarker(svg) {
      var m :| m in Markers && Test(svg, m);
      var i :| PatternAt(svg, i, m);
      MarkerWordsAreLowerCase(m);
      PatternAtIgnoresCase(svg, i, m);
      assert Test(t, m);
    }
    if HasAnimationMarker(t) {
      var m :| m in Markers && Test(t, m);
      var i :| PatternAt(t, i, m);
      MarkerWordsAreLowerCase(m);
      PatternAtIgnoresCase(svg, i, m);
      assert Test(svg, m);
    }
  }

  /** A match survives any text around it. */
  lemma PatternAtShift(p: string, s: string, q: string, i: int, m: Marker)
    requires PatternAt(s, i, m)
    ensures PatternAt(p + s + q, |p| + i, m)
  {
    var t := p + s + q;
    assert forall k :: 0 <= k < |s| ==> t[|p| + k] == s[k];
    if m.tail.SpacesThenColon? {
      var j := i + |m.word|;
      var e :| j <= e < |s| && s[e] == ':' && forall k :: j <= k < e ==> IsSpace(s[k]);
      assert t[|p| + e] == ':';
      assert forall k :: |p| + j <= k < |p| + e ==> IsSpace(t[k]) by {
        forall k | |p| + j <= k < |p| + e ensures IsSpace(t[k]) {
          assert t[k] == s[k - |p|];
        }
      }
    }
  }

  /** Over-detection is monotone: adding text around an animated SVG never
      makes it static. */
  lemma AnimatedInAnyContext(p: string, svg: string, q: string)
    requires HasAnimationMarker(svg)
    ensures HasAnimationMarker(p + svg + q)
  {
    var m :| m in Markers && Test(svg, m);
    var i :| PatternAt(svg, i, m);
    PatternAtShift(p, svg, q, i, m);
  }

  /** `<set>` with `>` straight after the tag name is not the `<set\s` test,
      and no other test matches it either. */
  lemma ClosedSetTagIsStatic()
    ensures !HasAnimationMarker("<set>")
  {
    var s := "<set>";
    forall m, i | m in Markers
      ensures !PatternAt(s, i, m)
    {
      if m != SetTag {
        // every other word is longer than the whole text
        assert |m.word| > |s|;
      } else if i == 1 {
        assert Lower(s[1]) != '<';
      } else if i == 0 {
        assert !IsSpace(s[4]);
      }
    }
  }

  /** `<set` followed by whitespace is animated. */
  lemma SetTagWithSpaceIsAnimated()
    ensures HasAnimationMarker("<set to=\"1\"/>")
  {
    var s := "<set to=\"1\"/>";
    assert WordAt(s, 0, "<set");
    assert PatternAt(s, 0, SetTag);
    assert SetTag in Markers;
  }

  /** `<animateTransform` does not pass the plain `<animate[\s>]` test at
      the same position (the ninth character is a letter); its own test
      classifies it. */
  lemma AnimateTransformHasItsOwnTest(s: string, i: int)
    requires PatternAt(s, i, AnimateTransformTag)
    ensures !PatternAt(s, i, AnimateTag)
    ensures HasAnimationMarker(s)
  {
    assert Lower(s[i + 8]) == AnimateTransformTag.word[8] == 't';
    LowerKeepsNonLetters(s[i + 8]);
    assert AnimateTransformTag in Markers;
  }

  /** A CSS rule with only `animation-name:` is caught by the seventh test,
      not by the `animation\s*:` test. */
  lemma AnimationNameNeedsItsOwnTest(s: string, i: int)
    requires PatternAt(s, i, AnimationNameProperty)
    ensures !PatternAt(s, i, AnimationProperty)
    ensures HasAnimationMarker(s)
  {
    assert Lower(s[i + 9]) == AnimationNameProperty.word[9] == '-';
    assert AnimationNameProperty in Markers;
  }
}

=== FILE: frame_math.dfy ===
/** The integer arithmetic of `svgToGif`: frame count, frame delay and
    capture height, computed exactly rather than in doubles. */
module FrameMath {
  import opened Wrappers

  /** `Math.round(n / d)` on the exact quotient: the integer nearest to
      `n / d`, ties going toward positive infinity. */
  function RoundDiv(n: int, d: int): (r: int)
    requires d != 0
    ensures d > 0 ==> 2 * r * d - d <= 2 * n < 2 * r * d + d
    ensures d < 0 ==> 2 * r * d - d >= 2 * n > 2 * r * d + d
  {
    if d > 0 then (2 * n + d) / (2 * d) else (-2 * n - d) / (-2 * d)
  }

  /** The bracket in `RoundDiv`'s contract pins the result down, for
      either sign of the divisor. */
  lemma RoundDivUnique(n: int, d: int, r: int)
    requires d != 0
    requires d > 0 ==> 2 * r * d - d <= 2 * n < 2 * r * d + d
    requires d < 0 ==> 2 * r * d - d >= 2 * n > 2 * r * d + d
    ensures r == RoundDiv(n, d)
  {
    if d > 0 {
      PositiveBracketUnique(n, d, r);
    } else {
      // negating both operands turns the bracket for `d` into the one for `-d`
      assert 2 * r * (-d) - (-d) <= 2 * (-n) < 2 * r * (-d) + (-d);
      PositiveBracketUnique(-n, -d, r);
      assert RoundDiv(-n, -d) == RoundDiv(n, d);
    }
  }

  lemma PositiveBracketUnique(n: int, d: int, r: int)
    requires d > 0
    requires 2 * r * d - d <= 2 * n < 2 * r * d + d
    ensures r == RoundDiv(n, d)
  {
    var q := RoundDiv(n, d);
    // both brackets overlap, so r * d and q * d are less than d apart
    assert (r - q) * d == r * d - q * d < d;
    assert (q - r) * d == q * d - r * d < d;
    MulMonotone(r - q, d);
    MulMonotone(q - r, d);
  }

  /** A whole multiple of `d` that is at least one `d`. */
  lemma MulMonotone(a: int, d: int)
    requires d > 0
    ensures a >= 1 ==> a * d >= d
  {
  }

  /** `totalFrames = Math.round((durationMs / 1000) * fps)`. */
  function TotalFrames(durationMs: int, fps: int): (n: int)
    ensures 1000 * n - 500 <= durationMs * fps < 1000 * n + 500
    ensures durationMs * fps == 0 ==> n == 0
    ensures durationMs * fps >= 0 ==> n >= 0
    ensures durationMs * fps < 0 ==> n <= 0
  {
    RoundDiv(durationMs * fps, 1000)
  }

  /** `frameDelay = Math.round(1000 / fps)`; `None` stands for the value
      `Infinity` that `1000 / 0` yields. */
  function FrameDelay(fps: int): (delay: Option<int>)
    ensures delay.None? <==> fps == 0
    ensures fps > 0 ==> 2 * delay.value * fps - fps <= 2000 < 2 * delay.value * fps + fps
    ensures fps > 0 ==> 0 <= delay.value <= 1000
  {
    if fps == 0 then None else Some(RoundDiv(1000, fps))
  }

  /** A capture needs a non-zero rate: with `fps == 0` there is no frame. */
  lemma FramesNeedARate(durationMs: int, fps: int)
    requires TotalFrames(durationMs, fps) != 0
    ensures fps != 0
    ensures FrameDelay(fps).Some?
  {
  }

  /** The floor on the measured content height. */
  const MinHeight := 100

  /** `height = Math.max(bodyHeight, 100)`. */
  function CaptureHeight(measured: int): (h: int)
    ensures h >= MinHeight
    ensures h >= measured
    ensures h == measured || h == MinHeight
  {
    if measured > MinHeight then measured else MinHeight
  }

  /** The documented defaults and the examples that come with them. */
  lemma DefaultTiming()
    ensures TotalFrames(3000, 10) == 30 && FrameDelay(10) == Some(100)
    ensures TotalFrames(1000, 5) == 5 && FrameDelay(5) == Some(200)
    ensures FrameDelay(3) == Some(333)
    ensures CaptureHeight(50) == 100 && CaptureHeight(240) == 240
  {
  }

  /** Half a frame rounds up, anything less rounds down; 290 ms at 50 fps
      is exactly 14.5 frames, so 15 of them. */
  lemma FrameCountRounding()
    ensures TotalFrames(150, 10) == 2
    ensures TotalFrames(149, 10) == 1
    ensures TotalFrames(49, 10) == 0
    ensures TotalFrames(290, 50) == 15
  {
  }
}

=== FILE: gif_encoder.dfy ===
/** The GIF encoder as the renderer sees it: a record of the canvas it was
    created with, the settings it was given and the frames it was fed, in
    order. Quantisation and the byte layout of the output are not modelled. */
module GifEncoder {
  import opened Wrappers

  /** `None` in a setting means the library's own default was left alone. */
  datatype Encoder = Encoder(
    width: int,
    height: int,
    delay: Option<int>,
    repeat: Option<int>,
    quality: Option<int>,
    started: bool,
    frames: seq<seq<int>>,
    finished: bool
  )

  /** `new GIFEncoder(width, height, "neuquant")`. */
  function New(width: int, height: int): (r: Encoder)
    ensures r.width == width && r.height == height
    ensures r.delay.None? && r.repeat.None? && r.quality.None?
    ensures !r.started && r.frames == [] && !r.finished
  {
    Encoder(width, height, None, None, None, false, [], false)
  }

  function SetDelay(e: Encoder, ms: int): (r: Encoder)
    ensures r.delay == Some(ms)
    ensures r.(delay := e.delay) == e
  {
    e.(delay := Some(ms))
  }

  function SetRepeat(e: Encoder, count: int): (r: Encoder)
    ensures r.repeat == Some(count)
    ensures r.(repeat := e.repeat) == e
  {
    e.(repeat := Some(count))
  }

  function SetQuality(e: Encoder, quality: int): (r: Encoder)
    ensures r.quality == Some(quality)
    ensures r.(quality := e.quality) == e
  {
    e.(quality := Some(quality))
  }

  function Start(e: Encoder): (r: Encoder)
    ensures r.started && r.(started := e.started) == e
  {
    e.(started := true)
  }

  function AddFrame(e: Encoder, pixels: seq<int>): (r: Encoder)
    ensures |r.frames| == |e.frames| + 1
    ensures r.frames[..|e.frames|] == e.frames && r.frames[|e.frames|] == pixels
    ensures r.(frames := e.frames) == e
  {
    e.(frames := e.frames + [pixels])
  }

  function Finish(e: Encoder): (r: Encoder)
    ensures r.finished && r.(finished := e.finished) == e
  {
    e.(finished := true)
  }

  /** `setRepeat(0)`: the GIF loops forever. */
  const LoopForever := 0

  /** `setQuality(10)`. */
  const Quality := 10
}

=== FILE: render_properties.dfy ===
/** What every run of `svgToGif` guarantees, stated over the reference run
    that `Renderer.SvgToGif` is proved to produce. */
module RenderProperties {
  import opened Wrappers
  import opened FrameMath
  import opened RenderTrace
  import opened Renderer
  import GifEncoder

  /** The plan never closes the browser; only the `finally` does. */
  lemma PlanHasNoClose(cfg: Config, env: Env)
    ensures Closes(Plan(cfg, env)) == 0
  {
    var plan, n := Plan(cfg, env), Frames(cfg);
    if n <= 0 {
      SelectNone(plan, CloseOf);
    } else {
      var ms := FrameDelay(cfg.fps).value;
      var s, a, b, f := Setup(cfg, env), Alternating(2 * n - 1, ms), EncoderSetup(env, ms), Feeding(n);
      SelectNone(s, CloseOf);
      SelectNone(b, CloseOf);
      SelectNone([Finish], CloseOf);
      AlternatingHasNoClose(2 * n - 1, ms);
      FeedingSkips(n);
      SelectConcat(s, a, CloseOf);
      SelectConcat(s + a, b, CloseOf);
      SelectConcat(s + a + b, f, CloseOf);
      SelectConcat(s + a + b + f, [Finish], CloseOf);
    }
  }

  /** The browser is closed exactly once, as the last call, whenever it was
      launched; when launching throws, it is never closed. */
  lemma CloseExactlyOnce(cfg: Config, env: Env)
    ensures var run := Expected(cfg, env);
      && |run.trace| >= 1 && run.trace[0] == Launch
      && (Throws(env, Launch) ==>
            run.trace == [Launch] && run.result == Failure(Launch) && Closes(run.trace) == 0)
      && (!Throws(env, Launch) ==>
            Closes(run.trace) == 1 && run.trace[|run.trace| - 1] == Close)
  {
    var run := Expected(cfg, env);
    if Throws(env, Launch) {
      assert run.trace == [Launch];
      SelectNone(run.trace, CloseOf);
    } else {
      var done := Attempt(Plan(cfg, env), env);
      assert run.trace == [Launch] + done + [Close];
      PlanHasNoClose(cfg, env);
      AttemptClosedOnce(Plan(cfg, env), env);
    }
  }


  /** A failed run names a call that threw: either the close, or the last
      call before it, every earlier call having succeeded. */
  lemma FailureStopsAtThrowingCall(cfg: Config, env: Env)
    requires Expected(cfg, env).result.Failure?
    ensures var run := Expected(cfg, env); var t, e := run.trace, run.result.error;
      && Throws(env, e)
      && (e == Launch ==> t == [Launch])
      && (e != Launch && e != Close ==>
            |t| >= 3 && t[|t| - 2] == e && t[|t| - 1] == Close && NoThrow(env, t[..|t| - 2]))
  {
    var run := Expected(cfg, env);
    if !Throws(env, Launch) && !Throws(env, Close) {
      var plan := Plan(cfg, env);
      var done := Attempt(plan, env);
      if NoThrow(env, plan) {
        PlanNeedsFrames(cfg, env);
      }
      assert !NoThrow(env, plan);
      var t := run.trace;
      assert t[..|t| - 2] == [Launch] + done[..|done| - 1];
    }
  }

  /** Selecting from a completed run: only the capture loop and the
      encoding loop can contribute when `g` ignores every other call. */
  lemma SelectCompletedRun<T>(cfg: Config, env: Env, g: Event -> Option<T>)
    requires Frames(cfg) >= 1
    requires forall e: Event :: !(e.Screenshot? || e.Wait? || e.AddFrame?) ==> g(e).None?
    ensures var n, ms := Frames(cfg), FrameDelay(cfg.fps).value;
      Select([Launch] + Plan(cfg, env) + [Close], g)
        == Select(Alternating(2 * n - 1, ms), g) + Select(Feeding(n), g)
  {
    var n, ms := Frames(cfg), FrameDelay(cfg.fps).value;
    var s, a, b, f := Setup(cfg, env), Alternating(2 * n - 1, ms), EncoderSetup(env, ms), Feeding(n);
    var head := [Launch] + s;
    assert [Launch] + Plan(cfg, env) + [Close] == head + a + b + f + [Finish, Close] by {
      assert Plan(cfg, env) == s + a + b + f + [Finish];
    }
    assert Select(head, g) == [] by {
      forall k | 0 <= k < |head| ensures g(head[k]).None? {
        if k > 0 { assert head[k] == s[k - 1]; }
      }
      SelectNone(head, g);
    }
    assert Select(b, g) == [] by { SelectNone(b, g); }
    assert Select([Finish, Close], g) == [] by {
      assert forall k :: 0 <= k < 2 ==> g([Finish, Close][k]).None?;
      SelectNone([Finish, Close], g);
    }
    SelectFramed(head, a, b, f, [Finish, Close], g);
  }


  /** A run succeeds only when launch, every planned call and close went
      through. */
  lemma SuccessMeansCompleted(cfg: Config, env: Env)
    requires Expected(cfg, env).result.Success?
    ensures !Throws(env, Launch) && !Throws(env, Close) && NoThrow(env, Plan(cfg, env))
    ensures Frames(cfg) >= 1 && FrameDelay(cfg.fps).Some?
    ensures Expected(cfg, env).trace == [Launch] + Plan(cfg, env) + [Close]
    ensures Expected(cfg, env).result == Success(FinalEncoder(cfg, env))
  {
    PlanNeedsFrames(cfg, env);
  }

  /** A successful run: at least one frame; launch, the whole plan and
      close, none throwing; the final viewport keeps the width and has the
      clamped height; the first decode comes right after the capture
      loop. */
  lemma SuccessfulRun(cfg: Config, env: Env)
    requires Expected(cfg, env).result.Success?
    ensures Frames(cfg) >= 1 && FrameDelay(cfg.fps).Some?
    ensures var run, n := Expected(cfg, env), Frames(cfg);
      && run.trace == [Launch] + Plan(cfg, env) + [Close]
      && NoThrow(env, run.trace)
      && run.trace[2] == SetViewport(cfg.width, cfg.width)
      && run.trace[5] == SetViewport(cfg.width, CaptureHeight(env.measuredHeight))
      && run.trace[5 + 2 * n] == Decode(0)
  {
    SuccessMeansCompleted(cfg, env);
    var plan, n := Plan(cfg, env), Frames(cfg);
    var t := [Launch] + plan + [Close];
    NoThrowBracketed(env, plan);
    PlanMilestones(cfg, env);
    assert t[2] == plan[1] && t[5] == plan[4] && t[5 + 2 * n] == plan[4 + 2 * n];
  }

  /** In a successful run, screenshots 0..n-1 come in order with one wait
      of the frame delay between consecutive ones and none after the
      last. */
  lemma SuccessfulCaptureOrder(cfg: Config, env: Env)
    requires Expected(cfg, env).result.Success?
    ensures Frames(cfg) >= 1 && FrameDelay(cfg.fps).Some?
    ensures var t, n, ms := Expected(cfg, env).trace, Frames(cfg), FrameDelay(cfg.fps).value;
      && |t| == 13 + 4 * n
      && (forall i :: 0 <= i < n ==> t[6 + 2 * i] == Screenshot(i))
      && (forall i :: 0 <= i < n - 1 ==> t[7 + 2 * i] == Wait(ms))
  {
    SuccessMeansCompleted(cfg, env);
    var plan := Plan(cfg, env);
    var n, ms := Frames(cfg), FrameDelay(cfg.fps).value;
    var t := [Launch] + plan + [Close];
    PlanLayout(cfg, env);
    var a := Alternating(2 * n - 1, ms);
    assert t[6..5 + 2 * n] == a by {
      assert t[6..5 + 2 * n] == plan[5..4 + 2 * n];
    }
    forall i | 0 <= i < n ensures t[6 + 2 * i] == Screenshot(i) {
      assert t[6 + 2 * i] == t[6..5 + 2 * n][2 * i];
      AlternatingAt(2 * n - 1, ms, i);
    }
    forall i | 0 <= i < n - 1 ensures t[7 + 2 * i] == Wait(ms) {
      assert t[7 + 2 * i] == t[6..5 + 2 * n][2 * i + 1];
      AlternatingAt(2 * n - 1, ms, i);
    }
  }

  /** Projected on screenshots, waits and frames added, a successful run is
      screenshots 0..n-1, n-1 waits of the frame delay, and frames 0..n-1
      added, in that order. */
  lemma SuccessfulRunCounts(cfg: Config, env: Env)
    requires Expected(cfg, env).result.Success?
    ensures Frames(cfg) >= 1 && FrameDelay(cfg.fps).Some?
    ensures var run, n, ms := Expected(cfg, env), Frames(cfg), FrameDelay(cfg.fps).value;
      && Shots(run.trace) == Range(n)
      && Waits(run.trace) == Repeat(n - 1, ms)
      && Added(run.trace) == Range(n)
  {
    SuccessMeansCompleted(cfg, env);
    CompletedShots(cfg, env);
    CompletedWaits(cfg, env);
    CompletedAdds(cfg, env);
  }

  /** The screenshots of a run that made every planned call. */
  lemma CompletedShots(cfg: Config, env: Env)
    requires Frames(cfg) >= 1
    ensures Shots([Launch] + Plan(cfg, env) + [Close]) == Range(Frames(cfg))
  {
    var n, ms := Frames(cfg), FrameDelay(cfg.fps).value;
    var a, f := Alternating(2 * n - 1, ms), Feeding(n);
    assert Select(a, ShotOf) == Range(n) by { CaptureShots(n, ms); }
    assert Select(f, ShotOf) == [] by { FeedingSkips(n); }
    SelectCompletedRun(cfg, env, ShotOf);
  }

  /** The waits of a run that made every planned call. */
  lemma CompletedWaits(cfg: Config, env: Env)
    requires Frames(cfg) >= 1
    ensures Waits([Launch] + Plan(cfg, env) + [Close]) == Repeat(Frames(cfg) - 1, FrameDelay(cfg.fps).value)
  {
    var n, ms := Frames(cfg), FrameDelay(cfg.fps).value;
    var a, f := Alternating(2 * n - 1, ms), Feeding(n);
    assert Select(a, WaitOf) == Repeat(n - 1, ms) by { CaptureWaits(n, ms); }
    assert Select(f, WaitOf) == [] by { FeedingSkips(n); }
    SelectCompletedRun(cfg, env, WaitOf);
  }

  /** The frames added in a run that made every planned call. */
  lemma CompletedAdds(cfg: Config, env: Env)
    requires Frames(cfg) >= 1
    ensures Added([Launch] + Plan(cfg, env) + [Close]) == Range(Frames(cfg))
  {
    var n, ms := Frames(cfg), FrameDelay(cfg.fps).value;
    var a, f := Alternating(2 * n - 1, ms), Feeding(n);
    assert Select(a, AddedOf) == [] by { SelectNone(a, AddedOf); }
    assert Select(f, AddedOf) == Range(n) by { FeedingAdds(n); }
    SelectCompletedRun(cfg, env, AddedOf);
  }

  /** A successful run's encoder: the canvas is the first capture's size,
      the delay is the frame delay, the GIF loops forever at quality 10,
      and it holds exactly the decoded captures, in capture order. */
  lemma SuccessfulEncoding(cfg: Config, env: Env)
    requires Expected(cfg, env).result.Success?
    ensures var gif := Expected(cfg, env).result.value;
      && env.decode(0).Some?
      && gif.width == env.decode(0).value.width
      && gif.height == env.decode(0).value.height
      && gif.delay == FrameDelay(cfg.fps)
      && gif.repeat == Some(GifEncoder.LoopForever)
      && gif.quality == Some(GifEncoder.Quality)
      && gif.started && gif.finished
      && |gif.frames| == Frames(cfg)
      && forall i :: 0 <= i < |gif.frames| ==>
           env.decode(i).Some? && gif.frames[i] == env.decode(i).value.pixels
  {
    SuccessMeansCompleted(cfg, env);
    var plan := Plan(cfg, env);
    var n := Frames(cfg);
    PlanLayout(cfg, env);
    forall i | 0 <= i < n ensures env.decode(i).Some? {
      assert plan[10 + 2 * n + 2 * i] == plan[10 + 2 * n..10 + 4 * n][2 * i];
      FeedingAt(n, i);
      assert !Throws(env, plan[10 + 2 * n + 2 * i]);
    }
  }

  /** Frame count and frame delay fix the shape of every successful run of
      the default configuration: 30 screenshots and 29 waits of 100 ms. */
  lemma DefaultRunShape(svg: string, env: Env)
    requires Expected(Defaults(svg), env).result.Success?
    ensures var t := Expected(Defaults(svg), env).trace;
      |Shots(t)| == 30 && Waits(t) == Repeat(29, 100)
  {
    DefaultTiming();
    SuccessfulRunCounts(Defaults(svg), env);
  }

  /** Screenshots sit in the capture part of the plan and frame additions
      in the encoding part, so every screenshot precedes every addition. */
  lemma PlanRegions(cfg: Config, env: Env, k: int)
    requires 0 <= k < |Plan(cfg, env)|
    ensures Plan(cfg, env)[k].Screenshot? ==> Frames(cfg) >= 1 && 5 <= k < 4 + 2 * Frames(cfg)
    ensures Plan(cfg, env)[k].AddFrame? ==> Frames(cfg) >= 1 && 10 + 2 * Frames(cfg) <= k
  {
    var plan, n := Plan(cfg, env), Frames(cfg);
    if n >= 1 {
      PlanLayout(cfg, env);
      var ms := FrameDelay(cfg.fps).value;
      if k < 5 {
        assert plan[k] == Setup(cfg, env)[k];
      } else if k < 4 + 2 * n {
        assert plan[k] == plan[5..4 + 2 * n][k - 5];
      } else if k < 10 + 2 * n {
        assert plan[k] == plan[4 + 2 * n..10 + 2 * n][k - 4 - 2 * n];
      } else if k < 10 + 4 * n {
        assert plan[k] == plan[10 + 2 * n..10 + 4 * n][k - 10 - 2 * n];
      }
    }
  }

  /** A screenshot that throws aborts the capture before any frame reaches
      the encoder. */
  lemma CaptureFailureEncodesNothing(cfg: Config, env: Env, i: nat)
    requires Expected(cfg, env).result == Failure(Screenshot(i))
    ensures Added(Expected(cfg, env).trace) == []
  {
    var plan := Plan(cfg, env);
    var done := Attempt(plan, env);
    assert !Throws(env, Launch) && !NoThrow(env, plan) && done[|done| - 1] == Screenshot(i) by {
      if NoThrow(env, plan) { PlanNeedsFrames(cfg, env); }
    }
    assert Select(done, AddedOf) == [] by {
      var m := |done| - 1;
      assert plan[m] == Screenshot(i);
      PlanRegions(cfg, env, m);
      forall k | 0 <= k < |done| ensures AddedOf(done[k]).None? {
        PlanRegions(cfg, env, k);
      }
      SelectNone(done, AddedOf);
    }
    assert Expected(cfg, env).trace == [Launch] + done + [Close];
    SelectNone([Launch], AddedOf);
    SelectNone([Close], AddedOf);
    SelectConcat([Launch], done, AddedOf);
    SelectConcat([Launch] + done, [Close], AddedOf);
  }


  /** With no frame to capture (a zero rate, or a duration too short to
      round up to one frame) nothing is captured, waited for or encoded, and
      the run fails; once the page is set up, it fails reading the first
      frame, since the source has no guard for this case. */
  lemma NoFramesNoCapture(cfg: Config, env: Env)
    requires Frames(cfg) <= 0
    ensures var run := Expected(cfg, env);
      && Shots(run.trace) == [] && Waits(run.trace) == [] && Added(run.trace) == []
      && run.result.Failure?
      && (!Throws(env, Launch) && !Throws(env, Close) && NoThrow(env, Setup(cfg, env)) ==>
            run.result == Failure(ReadMissingFirst))
  {
    var plan, run := Plan(cfg, env), Expected(cfg, env);
    NoFramesPlan(cfg, env);
    assert Uncaptured(run.trace) by {
      if Throws(env, Launch) {
        assert run.trace == [Launch];
      } else {
        UncapturedRun(plan, env);
      }
    }
    UncapturedSelectsNothing(run.trace);
    PlanNeedsFrames(cfg, env);
    if !Throws(env, Launch) && !Throws(env, Close) && NoThrow(env, Setup(cfg, env)) {
      AttemptStopsAt(env, plan, 5);
    }
  }

  /** Without frames the plan is the page set-up and the read of the
      missing first frame. */
  lemma NoFramesPlan(cfg: Config, env: Env)
    requires Frames(cfg) <= 0
    ensures var plan := Plan(cfg, env);
      && |plan| == 6 && plan[..5] == Setup(cfg, env) && plan[5] == ReadMissingFirst
      && Uncaptured(plan)
  {
    var plan := Plan(cfg, env);
    forall k | 0 <= k < |plan| ensures !(plan[k].Screenshot? || plan[k].Wait? || plan[k].AddFrame?) {
      if k < 5 { assert plan[k] == Setup(cfg, env)[k]; }
    }
  }
}

=== FILE: render_trace.dfy ===
/** Calls the renderer makes into the browser, the PNG decoder and the GIF
    encoder, recorded as a trace, and the environment that decides which of
    them throw. */
module RenderTrace {
  import opened Wrappers

  /** A decoded PNG: `PNG.sync.read(buffer)`. */
  datatype Image = Image(width: int, height: int, pixels: seq<int>)

  datatype Event =
    | Launch                            // puppeteer.launch
    | NewPage                           // browser.newPage
    | SetViewport(width: int, height: int)
    | SetContent(svg: string)           // the HTML page embedding the SVG
    | MeasureHeight                     // page.evaluate of the content height
    | Screenshot(index: nat)            // page.screenshot, i-th capture
    | Wait(ms: int)                     // the setTimeout between captures
    | ReadMissingFirst                  // PNG.sync.read(frames[0]) with no frames
    | Decode(index: nat)                // PNG.sync.read of the i-th capture
    | NewEncoder(width: int, height: int)
    | SetDelay(ms: int)
    | SetRepeat(count: int)
    | SetQuality(quality: int)
    | Start
    | AddFrame(index: nat)              // encoder.addFrame of the i-th capture
    | Finish
    | Close                             // browser.close

  /** The outside world: which foreign calls reject, what the page reports
      as its height, and what each captured PNG decodes to (`None`: the
      decoder throws). */
  datatype Env = Env(
    resolves: Event -> bool,
    measuredHeight: int,
    decode: nat -> Option<Image>
  )

  /** Whether performing `e` throws. Timers and the encoder's constructor
      and setters cannot fail; reading `frames[0]` of an empty array
      always does. */
  predicate Throws(env: Env, e: Event) {
    match e
    case Decode(i) => env.decode(i).None?
    case ReadMissingFirst => true
    case Wait(_) => false
    case NewEncoder(_, _) => false
    case SetDelay(_) => false
    case SetRepeat(_) => false
    case SetQuality(_) => false
    case Start => false
    case _ => !env.resolves(e)
  }

  predicate NoThrow(env: Env, t: seq<Event>) {
    forall k :: 0 <= k < |t| ==> !Throws(env, t[k])
  }

  /** Running `plan` call by call until one throws: the calls actually made. */
  function Attempt(plan: seq<Event>, env: Env): (done: seq<Event>)
    ensures |done| <= |plan| && done == plan[..|done|]
    ensures NoThrow(env, plan) ==> done == plan
    ensures !NoThrow(env, plan) ==>
      && |done| > 0
      && Throws(env, done[|done| - 1])
      && NoThrow(env, done[..|done| - 1])
  {
    if |plan| == 0 then []
    else if Throws(env, plan[0]) then [plan[0]]
    else
      var rest := Attempt(plan[1..], env);
      assert NoThrow(env, plan) ==> NoThrow(env, plan[1..]);
      assert !NoThrow(env, plan) ==> !NoThrow(env, plan[1..]) by {
        if !NoThrow(env, plan) {
          var k :| 0 <= k < |plan| && Throws(env, plan[k]);
          assert plan[1..][k - 1] == plan[k];
        }
      }
      [plan[0]] + rest
  }

  /** `trace` is what the first `|trace|` calls of `plan` did without
      throwing. */
  predicate Progress(env: Env, plan: seq<Event>, trace: seq<Event>) {
    |trace| <= |plan| && trace == plan[..|trace|] && NoThrow(env, trace)
  }

  /** Launch, a whole plan and close, none throwing, is a run with no throw. */
  lemma NoThrowBracketed(env: Env, plan: seq<Event>)
    requires !Throws(env, Launch) && !Throws(env, Close) && NoThrow(env, plan)
    ensures NoThrow(env, [Launch] + plan + [Close])
  {
    var t := [Launch] + plan + [Close];
    forall k | 0 <= k < |t| ensures !Throws(env, t[k]) {
      if 0 < k < |t| - 1 { assert t[k] == plan[k - 1]; }
    }
  }

  /** The attempt stops at the first call that throws. */
  lemma {:induction false} AttemptStopsAt(env: Env, plan: seq<Event>, j: nat)
    requires j < |plan| && NoThrow(env, plan[..j]) && Throws(env, plan[j])
    ensures Attempt(plan, env) == plan[..j + 1]
    ensures !NoThrow(env, plan)
  {
    if j > 0 {
      assert plan[..j][0] == plan[0];
      assert plan[1..][..j - 1] == plan[1..j];
      assert forall k :: 0 <= k < j - 1 ==> plan[1..j][k] == plan[..j][k + 1];
      AttemptStopsAt(env, plan[1..], j - 1);
      assert [plan[0]] + plan[1..][..j] == plan[..j + 1];
    }
  }

  /** The next planned call either throws, which ends the attempt there, or
      extends the progress by one call. */
  lemma Advance(env: Env, plan: seq<Event>, trace: seq<Event>)
    requires Progress(env, plan, trace) && |trace| < |plan|
    ensures var next := trace + [plan[|trace|]];
      && (Throws(env, plan[|trace|]) ==> Attempt(plan, env) == next && !NoThrow(env, plan))
      && (!Throws(env, plan[|trace|]) ==> Progress(env, plan, next))
  {
    var next := trace + [plan[|trace|]];
    assert next == plan[..|trace| + 1];
    if Throws(env, plan[|trace|]) {
      AttemptStopsAt(env, plan, |trace|);
    }
  }

  /** A plan run to the end without a throw. */
  lemma Completed(env: Env, plan: seq<Event>, trace: seq<Event>)
    requires Progress(env, plan, trace) && |trace| == |plan|
    ensures NoThrow(env, plan) && Attempt(plan, env) == plan == trace
  {
  }

  /** The capture loop's calls when `m` of them have been made: screenshot
      `k` at position `2k`, a wait of `ms` after each screenshot. */
  function Alternating(m: nat, ms: int): (t: seq<Event>)
    ensures |t| == m
  {
    seq(m, k requires 0 <= k < m => if k % 2 == 0 then Screenshot(k / 2) else Wait(ms))
  }

  /** The encoding loop's calls: decode then add, per captured frame. */
  function Feeding(n: nat): (t: seq<Event>)
    ensures |t| == 2 * n
  {
    seq(2 * n, k requires 0 <= k < 2 * n => if k % 2 == 0 then Decode(k / 2) else AddFrame(k / 2))
  }

  /** Position `2i` of the capture calls is screenshot `i`; position
      `2i + 1` is a wait. */
  lemma AlternatingAt(m: nat, ms: int, i: nat)
    ensures 2 * i < m ==> Alternating(m, ms)[2 * i] == Screenshot(i)
    ensures 2 * i + 1 < m ==> Alternating(m, ms)[2 * i + 1] == Wait(ms)
  {
    assert (2 * i) % 2 == 0 && (2 * i) / 2 == i;
    assert (2 * i + 1) % 2 == 1;
  }

  /** Position `2i` of the encoding calls decodes frame `i`; position
      `2i + 1` adds it. */
  lemma FeedingAt(n: nat, i: nat)
    ensures i < n ==> Feeding(n)[2 * i] == Decode(i) && Feeding(n)[2 * i + 1] == AddFrame(i)
  {
    assert (2 * i) % 2 == 0 && (2 * i) / 2 == i;
    assert (2 * i + 1) % 2 == 1 && (2 * i + 1) / 2 == i;
  }

  /** The capture calls grow by a wait and the next screenshot. */
  lemma AlternatingSnoc(n: nat, ms: int)
    requires n >= 1
    ensures Alternating(2 * n + 1, ms) == Alternating(2 * n - 1, ms) + [Wait(ms), Screenshot(n)]
  {
    var a, b := Alternating(2 * n + 1, ms), Alternating(2 * n - 1, ms) + [Wait(ms), Screenshot(n)];
    forall k | 0 <= k < |a| ensures a[k] == b[k] {
      if k < 2 * n - 1 {
        assert a[k] == Alternating(2 * n - 1, ms)[k];
      } else {
        AlternatingAt(2 * n + 1, ms, n - 1);
        AlternatingAt(2 * n + 1, ms, n);
      }
    }
  }

  /** The encoding calls grow by one decode and one add. */
  lemma FeedingSnoc(n: nat)
    ensures Feeding(n + 1) == Feeding(n) + [Decode(n), AddFrame(n)]
  {
    var a, b := Feeding(n + 1), Feeding(n) + [Decode(n), AddFrame(n)];
    forall k | 0 <= k < |a| ensures a[k] == b[k] {
      if k < 2 * n {
        assert a[k] == Feeding(n)[k];
      } else {
        FeedingAt(n + 1, n);
      }
    }
  }

  /** The part of a trace selected by `f`, in trace order. */
  function Select<T>(t: seq<Event>, f: Event -> Option<T>): (r: seq<T>)
    ensures |r| <= |t|
  {
    if |t| == 0 then []
    else Select(t[..|t| - 1], f) + (match f(t[|t| - 1]) case Some(x) => [x] case None => [])
  }

  lemma {:induction false} SelectConcat<T>(a: seq<Event>, b: seq<Event>, f: Event -> Option<T>)
    ensures Select(a + b, f) == Select(a, f) + Select(b, f)
    decreases |b|
  {
    if |b| > 0 {
      var b' := b[..|b| - 1];
      assert (a + b)[..|a + b| - 1] == a + b';
      SelectConcat(a, b', f);
    } else {
      assert a + b == a;
    }
  }

  /** Nothing is selected from a trace where `f` selects no call. */
  lemma {:induction false} SelectNone<T>(t: seq<Event>, f: Event -> Option<T>)
    requires forall k :: 0 <= k < |t| ==> f(t[k]).None?
    ensures Select(t, f) == []
  {
    if |t| > 0 {
      SelectNone(t[..|t| - 1], f);
    }
  }

  /** Parts where `f` selects nothing drop out of the projection. */
  lemma SelectFramed<T>(h: seq<Event>, a: seq<Event>, m: seq<Event>, b: seq<Event>, z: seq<Event>, f: Event -> Option<T>)
    requires Select(h, f) == [] && Select(m, f) == [] && Select(z, f) == []
    ensures Select(h + a + m + b + z, f) == Select(a, f) + Select(b, f)
  {
    var ha := h + a;
    var ham := ha + m;
    var hamb := ham + b;
    assert Select(ha, f) == Select(a, f) by { SelectConcat(h, a, f); }
    assert Select(ham, f) == Select(a, f) by { SelectConcat(ha, m, f); }
    assert Select(hamb, f) == Select(a, f) + Select(b, f) by { SelectConcat(ham, b, f); }
    SelectConcat(hamb, z, f);
  }

  function ShotOf(e: Event): Option<nat> {
    if e.Screenshot? then Some(e.index) else None
  }

  function WaitOf(e: Event): Option<int> {
    if e.Wait? then Some(e.ms) else None
  }

  function AddedOf(e: Event): Option<nat> {
    if e.AddFrame? then Some(e.index) else None
  }

  function CloseOf(e: Event): Option<()> {
    if e.Close? then Some(()) else None
  }

  /** Indices of the screenshots taken, in capture order. */
  function Shots(t: seq<Event>): seq<nat> {
    Select(t, ShotOf)
  }

  /** Delays of the waits performed, in order. */
  function Waits(t: seq<Event>): seq<int> {
    Select(t, WaitOf)
  }

  /** Indices of the captures handed to the encoder, in order. */
  function Added(t: seq<Event>): seq<nat> {
    Select(t, AddedOf)
  }

  /** How many times the browser was closed. */
  function Closes(t: seq<Event>): nat {
    |Select(t, CloseOf)|
  }

  /** A plan that never closes, bracketed by a launch and a `finally` close,
      closes exactly once however far it got. */
  lemma AttemptClosedOnce(plan: seq<Event>, env: Env)
    requires Closes(plan) == 0
    ensures Closes([Launch] + Attempt(plan, env) + [Close]) == 1
  {
    var done := Attempt(plan, env);
    assert Select(done, CloseOf) == [] by {
      assert plan == done + plan[|done|..];
      SelectConcat(done, plan[|done|..], CloseOf);
    }
    assert Select([Launch], CloseOf) == [] by {
      SelectNone([Launch], CloseOf);
    }
    assert Select([Close], CloseOf) == [()] by {
      assert [Close][..0] == [];
    }
    SelectConcat([Launch], done, CloseOf);
    SelectConcat([Launch] + done, [Close], CloseOf);
  }

  /** No screenshot, wait or frame addition anywhere in `t`. */
  ghost predicate Uncaptured(t: seq<Event>) {
    forall k :: 0 <= k < |t| ==> !(t[k].Screenshot? || t[k].Wait? || t[k].AddFrame?)
  }

  lemma UncapturedSelectsNothing(t: seq<Event>)
    requires Uncaptured(t)
    ensures Shots(t) == [] && Waits(t) == [] && Added(t) == []
  {
    SelectNone(t, ShotOf);
    SelectNone(t, WaitOf);
    SelectNone(t, AddedOf);
  }

  /** A plan without capture calls gives a run without them, however far
      it got. */
  lemma UncapturedRun(plan: seq<Event>, env: Env)
    requires Uncaptured(plan)
    ensures Uncaptured([Launch] + Attempt(plan, env) + [Close])
  {
    var done := Attempt(plan, env);
    var t := [Launch] + done + [Close];
    forall k | 0 <= k < |t| ensures !(t[k].Screenshot? || t[k].Wait? || t[k].AddFrame?) {
      if 1 <= k <= |done| { assert t[k] == done[k - 1] == plan[k - 1]; }
    }
  }

  function Range(n: nat): (r: seq<nat>)
    ensures |r| == n && forall i :: 0 <= i < n ==> r[i] == i
  {
    seq(n, i requires 0 <= i < n => i)
  }

  function Repeat(n: nat, x: int): (r: seq<int>)
    ensures |r| == n && forall i :: 0 <= i < n ==> r[i] == x
  {
    seq(n, i requires 0 <= i < n => x)
  }

  lemma RangeSnoc(n: nat)
    ensures Range(n + 1) == Range(n) + [n]
  {
    assert Range(n + 1)[..n] == Range(n);
  }

  lemma RepeatSnoc(n: nat, x: int)
    ensures Repeat(n + 1, x) == Repeat(n, x) + [x]
  {
    assert Repeat(n + 1, x)[..n] == Repeat(n, x);
  }

  /** The capture loop for `n` frames takes screenshots 0 to n-1 in order. */
  lemma {:induction false} CaptureShots(n: nat, ms: int)
    requires n >= 1
    ensures Shots(Alternating(2 * n - 1, ms)) == Range(n)
  {
    if n == 1 {
      assert Alternating(1, ms) == [Screenshot(0)];
      assert Alternating(1, ms)[..0] == [];
    } else {
      CaptureShots(n - 1, ms);
      var a, tail := Alternating(2 * n - 3, ms), [Wait(ms), Screenshot(n - 1)];
      AlternatingSnoc(n - 1, ms);
      assert Select(tail, ShotOf) == [n - 1] by {
        assert tail[..1] == [Wait(ms)];
        assert [Wait(ms)][..0] == [];
      }
      SelectConcat(a, tail, ShotOf);
      RangeSnoc(n - 1);
    }
  }

  /** It waits `ms` between consecutive screenshots and not after the last. */
  lemma {:induction false} CaptureWaits(n: nat, ms: int)
    requires n >= 1
    ensures Waits(Alternating(2 * n - 1, ms)) == Repeat(n - 1, ms)
  {
    if n == 1 {
      assert Alternating(1, ms) == [Screenshot(0)];
      assert Alternating(1, ms)[..0] == [];
    } else {
      CaptureWaits(n - 1, ms);
      var a, tail := Alternating(2 * n - 3, ms), [Wait(ms), Screenshot(n - 1)];
      AlternatingSnoc(n - 1, ms);
      assert Select(tail, WaitOf) == [ms] by {
        assert tail[..1] == [Wait(ms)];
        assert [Wait(ms)][..0] == [];
      }
      SelectConcat(a, tail, WaitOf);
      RepeatSnoc(n - 2, ms);
    }
  }

  /** The encoding loop adds every capture exactly once, in capture order. */
  lemma {:induction false} FeedingAdds(n: nat)
    ensures Added(Feeding(n)) == Range(n)
  {
    if n > 0 {
      FeedingAdds(n - 1);
      var f, tail := Feeding(n - 1), [Decode(n - 1), AddFrame(n - 1)];
      FeedingSnoc(n - 1);
      assert Select(tail, AddedOf) == [n - 1] by {
        assert tail[..1] == [Decode(n - 1)];
        assert [Decode(n - 1)][..0] == [];
      }
      SelectConcat(f, tail, AddedOf);
      RangeSnoc(n - 1);
    }
  }

  /** The encoding loop takes no screenshot, waits for nothing and never
      closes the browser. */
  lemma FeedingSkips(n: nat)
    ensures Shots(Feeding(n)) == [] && Waits(Feeding(n)) == []
    ensures Closes(Feeding(n)) == 0
  {
    var f := Feeding(n);
    forall k | 0 <= k < |f| ensures f[k].Decode? || f[k].AddFrame? {
    }
    SelectNone(f, ShotOf);
    SelectNone(f, WaitOf);
    SelectNone(f, CloseOf);
  }

  /** The capture loop never closes the browser. */
  lemma {:induction false} AlternatingHasNoClose(m: nat, ms: int)
    ensures Closes(Alternating(m, ms)) == 0
  {
    if m > 0 {
      AlternatingHasNoClose(m - 1, ms);
      assert Alternating(m, ms) == Alternating(m - 1, ms) + [Alternating(m, ms)[m - 1]];
      SelectConcat(Alternating(m - 1, ms), [Alternating(m, ms)[m - 1]], CloseOf);
      assert [Alternating(m, ms)[m - 1]][..0] == [];
    }
  }
}

=== FILE: renderer.dfy ===
/** `svgToGif`: launch a headless browser, load the SVG, size the viewport,
    capture timed screenshots and feed them to a GIF encoder, closing the
    browser on every exit path. Every foreign call is an event of the trace
    and may throw as the environment decides. */
module Renderer {
  import opened Wrappers
  import opened FrameMath
  import opened RenderTrace
  import GifEncoder

  /** The arguments of `svgToGif`. */
  datatype Config = Config(svg: string, width: int, durationMs: int, fps: int)

  /** The source's default arguments. */
  function Defaults(svg: string): Config {
    Config(svg, 1024, 3000, 10)
  }

  /** One invocation: the calls made, and the GIF encoder's final state or
      the call whose error the invocation rejects with. */
  datatype Run = Run(trace: seq<Event>, result: Result<GifEncoder.Encoder, Event>)

  function Frames(cfg: Config): int {
    TotalFrames(cfg.durationMs, cfg.fps)
  }

  /** Page preparation: new page, square viewport, content, height
      measurement, then the viewport of the final capture size. */
  function Setup(cfg: Config, env: Env): (t: seq<Event>)
    ensures |t| == 5
  {
    [ NewPage,
      SetViewport(cfg.width, cfg.width),
      SetContent(cfg.svg),
      MeasureHeight,
      SetViewport(cfg.width, CaptureHeight(env.measuredHeight)) ]
  }

  /** The first capture as decoded; only used once that decode succeeded. */
  function FirstImage(env: Env): Image {
    env.decode(0).GetOr(Image(0, 0, []))
  }

  function PixelsOf(env: Env, i: nat): seq<int> {
    env.decode(i).GetOr(Image(0, 0, [])).pixels
  }

  /** Encoder preparation: decode the first capture, create the encoder on
      its dimensions, configure it and start it. */
  function EncoderSetup(env: Env, ms: int): (t: seq<Event>)
    ensures |t| == 6
  {
    [ Decode(0),
      NewEncoder(FirstImage(env).width, FirstImage(env).height),
      SetDelay(ms),
      SetRepeat(GifEncoder.LoopForever),
      SetQuality(GifEncoder.Quality),
      Start ]
  }

  /** The calls of the `try` block in order, supposing none throws. With no
      frame to capture, reading the first frame is the call that throws. */
  function Plan(cfg: Config, env: Env): seq<Event> {
    var n := Frames(cfg);
    if n <= 0 then Setup(cfg, env) + [ReadMissingFirst]
    else
      var ms := FrameDelay(cfg.fps).value;
      Setup(cfg, env) + Alternating(2 * n - 1, ms) + EncoderSetup(env, ms) + Feeding(n) + [Finish]
  }

  /** A plan that runs through reads a first frame, so it captured one. */
  lemma PlanNeedsFrames(cfg: Config, env: Env)
    ensures NoThrow(env, Plan(cfg, env)) ==> Frames(cfg) >= 1
  {
    if Frames(cfg) <= 0 {
      assert Plan(cfg, env)[5] == ReadMissingFirst;
    }
  }

  /** The capture calls sit right after the five set-up calls. */
  ghost predicate CaptureLaidOut(plan: seq<Event>, n: int, ms: int) {
    n >= 1 && |plan| >= 4 + 2 * n && plan[5..4 + 2 * n] == Alternating(2 * n - 1, ms)
  }

  /** After the capture calls: encoder set-up, decode and add per frame,
      then finish. */
  ghost predicate EncodingLaidOut(plan: seq<Event>, n: int, ms: int, env: Env) {
    && n >= 1
    && |plan| == 11 + 4 * n
    && plan[4 + 2 * n..10 + 2 * n] == EncoderSetup(env, ms)
    && plan[10 + 2 * n..10 + 4 * n] == Feeding(n)
    && plan[10 + 4 * n] == Finish
  }

  lemma PlanLayout(cfg: Config, env: Env)
    requires Frames(cfg) >= 1
    ensures CaptureLaidOut(Plan(cfg, env), Frames(cfg), FrameDelay(cfg.fps).value)
    ensures EncodingLaidOut(Plan(cfg, env), Frames(cfg), FrameDelay(cfg.fps).value, env)
  {
    var plan, n, ms := Plan(cfg, env), Frames(cfg), FrameDelay(cfg.fps).value;
    var s, a, b, f := Setup(cfg, env), Alternating(2 * n - 1, ms), EncoderSetup(env, ms), Feeding(n);
    assert plan == s + a + b + f + [Finish];
    assert plan[5..4 + 2 * n] == a;
    assert plan[4 + 2 * n..10 + 2 * n] == b;
    assert plan[10 + 2 * n..10 + 4 * n] == f;
  }

  /** The two viewports are the second and fifth call; the first decode
      comes right after the capture calls. */
  lemma PlanMilestones(cfg: Config, env: Env)
    requires Frames(cfg) >= 1
    ensures var plan, n := Plan(cfg, env), Frames(cfg);
      && |plan| == 11 + 4 * n
      && plan[1] == SetViewport(cfg.width, cfg.width)
      && plan[4] == SetViewport(cfg.width, CaptureHeight(env.measuredHeight))
      && plan[4 + 2 * n] == Decode(0)
  {
    var plan, n := Plan(cfg, env), Frames(cfg);
    PlanLayout(cfg, env);
    assert plan[1] == Setup(cfg, env)[1] && plan[4] == Setup(cfg, env)[4];
    assert plan[4 + 2 * n] == plan[4 + 2 * n..10 + 2 * n][0];
  }

  /** The encoder after a run where nothing threw. */
  function FinalEncoder(cfg: Config, env: Env): GifEncoder.Encoder
    requires Frames(cfg) >= 1
  {
    var n, first := Frames(cfg), FirstImage(env);
    GifEncoder.Encoder(
      first.width, first.height,
      Some(FrameDelay(cfg.fps).value), Some(GifEncoder.LoopForever), Some(GifEncoder.Quality),
      true, seq(n, i requires 0 <= i < n => PixelsOf(env, i)), true)
  }

  /** What the `try` block yields: the encoder, or the call that threw. */
  function BodyResult(cfg: Config, env: Env): Result<GifEncoder.Encoder, Event> {
    var plan := Plan(cfg, env);
    if NoThrow(env, plan) then
      PlanNeedsFrames(cfg, env);
      Success(FinalEncoder(cfg, env))
    else
      var done := Attempt(plan, env);
      Failure(done[|done| - 1])
  }

  /** The reference run: the planned calls up to the first that throws,
      framed by launch and, when launch succeeded, by exactly one close. An
      error thrown by close replaces the block's outcome, as `finally`
      does. */
  function Expected(cfg: Config, env: Env): Run {
    if Throws(env, Launch) then Run([Launch], Failure(Launch))
    else
      Run([Launch] + Attempt(Plan(cfg, env), env) + [Close],
          if Throws(env, Close) then Failure(Close) else BodyResult(cfg, env))
  }

  /** `await call`: make the next planned call; report whether it threw. */
  method Call(env: Env, ghost plan: seq<Event>, trace: seq<Event>, e: Event)
    returns (next: seq<Event>, threw: bool)
    requires Progress(env, plan, trace) && |trace| < |plan| && plan[|trace|] == e
    ensures next == trace + [e] && threw == Throws(env, e)
    ensures threw ==> next == Attempt(plan, env) && !NoThrow(env, plan)
    ensures !threw ==> Progress(env, plan, next)
  {
    Advance(env, plan, trace);
    next := trace + [e];
    threw := Throws(env, e);
  }

  /** A call that cannot throw: timers and the encoder's setters. */
  method CallSafe(env: Env, ghost plan: seq<Event>, trace: seq<Event>, e: Event)
    returns (next: seq<Event>)
    requires Progress(env, plan, trace) && |trace| < |plan| && plan[|trace|] == e
    requires !Throws(env, e)
    ensures next == trace + [e] && Progress(env, plan, next)
  {
    Advance(env, plan, trace);
    next := trace + [e];
  }

  /** Calls of the capture loop made after `i` iterations for `n` frames. */
  function CaptureLength(i: int, n: int): int {
    if i == 0 then 0 else if i < n then 2 * i else 2 * i - 1
  }

  /** Page preparation, the first five calls of the `try` block. */
  method PreparePage(cfg: Config, env: Env, ghost plan: seq<Event>)
    returns (trace: seq<Event>, threw: bool)
    requires plan == Plan(cfg, env)
    ensures threw ==> trace == Attempt(plan, env) && !NoThrow(env, plan)
    ensures !threw ==> Progress(env, plan, trace) && |trace| == 5
  {
    trace, threw := Call(env, plan, [], NewPage);
    if threw { return; }
    trace, threw := Call(env, plan, trace, SetViewport(cfg.width, cfg.width));
    if threw { return; }
    trace, threw := Call(env, plan, trace, SetContent(cfg.svg));
    if threw { return; }
    trace, threw := Call(env, plan, trace, MeasureHeight);
    if threw { return; }
    var height := CaptureHeight(env.measuredHeight);
    trace, threw := Call(env, plan, trace, SetViewport(cfg.width, height));
  }

  /** The capture loop: screenshot, then wait unless it was the last one. */
  method CaptureFrames(env: Env, ghost plan: seq<Event>, start: seq<Event>,
                       totalFrames: int, frameDelay: Option<int>)
    returns (trace: seq<Event>, frames: seq<nat>, threw: bool)
    requires totalFrames >= 2 ==> frameDelay.Some?
    requires totalFrames >= 1 ==> CaptureLaidOut(plan, totalFrames, frameDelay.GetOr(0))
    requires Progress(env, plan, start) && |start| == 5
    ensures threw ==> trace == Attempt(plan, env) && !NoThrow(env, plan)
    ensures !threw ==> Progress(env, plan, trace)
    ensures !threw ==> frames == Range(if totalFrames <= 0 then 0 else totalFrames)
    ensures !threw ==> |trace| == 5 + CaptureLength(|frames|, totalFrames)
  {
    trace, frames, threw := start, [], false;
    var i := 0;
    while i < totalFrames
      invariant 0 <= i && (totalFrames >= 1 ==> i <= totalFrames) && (totalFrames <= 0 ==> i == 0)
      invariant frames == Range(i)
      invariant |trace| == 5 + CaptureLength(i, totalFrames)
      invariant Progress(env, plan, trace)
    {
      assert plan[5 + 2 * i] == Screenshot(i) by {
        assert plan[5 + 2 * i] == plan[5..4 + 2 * totalFrames][2 * i];
      }
      trace, threw := Call(env, plan, trace, Screenshot(i));
      if threw { return; }
      frames := frames + [i];
      if i < totalFrames - 1 {
        assert plan[6 + 2 * i] == plan[5..4 + 2 * totalFrames][2 * i + 1];
        trace := CallSafe(env, plan, trace, Wait(frameDelay.value));
      }
      i := i + 1;
    }
  }

  /** The encoder as it stands after `j` frames were added. */
  function EncoderAfter(env: Env, first: Image, ms: int, j: nat): GifEncoder.Encoder {
    GifEncoder.Encoder(
      first.width, first.height, Some(ms), Some(GifEncoder.LoopForever), Some(GifEncoder.Quality),
      true, seq(j, k requires 0 <= k < j => PixelsOf(env, k)), false)
  }

  /** Adding capture `j` to the encoder that holds captures before `j`
      gives the encoder that holds captures up to `j`. */
  lemma EncoderAfterStep(env: Env, first: Image, ms: int, j: nat)
    ensures GifEncoder.AddFrame(EncoderAfter(env, first, ms, j), PixelsOf(env, j))
         == EncoderAfter(env, first, ms, j + 1)
  {
    var before, after := EncoderAfter(env, first, ms, j).frames, EncoderAfter(env, first, ms, j + 1).frames;
    assert before + [PixelsOf(env, j)] == after;
  }

  /** Read the first capture, create the encoder on its dimensions,
      configure and start it. */
  method StartEncoder(env: Env, ghost plan: seq<Event>, start: seq<Event>, frames: seq<nat>, ms: int)
    returns (trace: seq<Event>, started: Result<GifEncoder.Encoder, Event>)
    requires |frames| >= 1 && frames == Range(|frames|)
    requires EncodingLaidOut(plan, |frames|, ms, env)
    requires Progress(env, plan, start) && |start| == 4 + 2 * |frames|
    ensures started.Failure? ==> trace == Attempt(plan, env) && !NoThrow(env, plan)
    ensures started.Failure? ==> started.error == trace[|trace| - 1] == Decode(0)
    ensures started.Success? ==> Progress(env, plan, trace) && |trace| == 10 + 2 * |frames|
    ensures started.Success? ==> started.value == EncoderAfter(env, FirstImage(env), ms, 0)
  {
    var threw;
    assert plan[4 + 2 * |frames|] == plan[4 + 2 * |frames|..10 + 2 * |frames|][0];
    trace, threw := Call(env, plan, start, Decode(frames[0]));
    if threw { return trace, Failure(Decode(frames[0])); }
    assert plan[|trace|..|trace| + 5] == plan[4 + 2 * |frames|..10 + 2 * |frames|][1..];
    ConfigurationLaidOut(plan, |trace|, env, ms);
    var encoder;
    trace, encoder := ConfigureEncoder(env, plan, trace, env.decode(frames[0]).value, ms);
    return trace, Success(encoder);
  }

  /** Create the encoder on the first capture's size, set delay, repeat and
      quality, and start it; none of these calls can throw. */
  method ConfigureEncoder(env: Env, ghost plan: seq<Event>, start: seq<Event>, first: Image, ms: int)
    returns (trace: seq<Event>, encoder: GifEncoder.Encoder)
    requires |start| + 5 <= |plan| && Progress(env, plan, start)
    requires plan[|start|] == NewEncoder(first.width, first.height)
    requires plan[|start| + 1] == SetDelay(ms) && plan[|start| + 2] == SetRepeat(GifEncoder.LoopForever)
    requires plan[|start| + 3] == SetQuality(GifEncoder.Quality) && plan[|start| + 4] == Start
    ensures Progress(env, plan, trace) && |trace| == |start| + 5
    ensures encoder == EncoderAfter(env, first, ms, 0)
  {
    encoder := GifEncoder.New(first.width, first.height);
    trace := CallSafe(env, plan, start, NewEncoder(first.width, first.height));
    encoder := GifEncoder.SetDelay(encoder, ms);
    trace := CallSafe(env, plan, trace, SetDelay(ms));
    encoder := GifEncoder.SetRepeat(encoder, GifEncoder.LoopForever);
    trace := CallSafe(env, plan, trace, SetRepeat(GifEncoder.LoopForever));
    encoder := GifEncoder.SetQuality(encoder, GifEncoder.Quality);
    trace := CallSafe(env, plan, trace, SetQuality(GifEncoder.Quality));
    encoder := GifEncoder.Start(encoder);
    trace := CallSafe(env, plan, trace, Start);
    assert EncoderAfter(env, first, ms, 0).frames == [];
  }

  /** The five configuration calls, one by one. */
  lemma ConfigurationLaidOut(plan: seq<Event>, o: nat, env: Env, ms: int)
    requires o + 5 <= |plan| && plan[o..o + 5] == EncoderSetup(env, ms)[1..]
    ensures plan[o] == NewEncoder(FirstImage(env).width, FirstImage(env).height)
    ensures plan[o + 1] == SetDelay(ms) && plan[o + 2] == SetRepeat(GifEncoder.LoopForever)
    ensures plan[o + 3] == SetQuality(GifEncoder.Quality) && plan[o + 4] == Start
  {
    var b := plan[o..o + 5];
    assert plan[o] == b[0] && plan[o + 1] == b[1] && plan[o + 2] == b[2];
    assert plan[o + 3] == b[3] && plan[o + 4] == b[4];
  }

  /** Round `j` of the encoding loop decodes capture `j`, then adds it. */
  lemma FeedingLaidOut(plan: seq<Event>, n: int, ms: int, env: Env, j: nat)
    requires EncodingLaidOut(plan, n, ms, env) && j < n
    ensures plan[10 + 2 * n + 2 * j] == Decode(j) && plan[11 + 2 * n + 2 * j] == AddFrame(j)
  {
    var f := plan[10 + 2 * n..10 + 4 * n];
    assert plan[10 + 2 * n + 2 * j] == f[2 * j];
    assert plan[11 + 2 * n + 2 * j] == f[2 * j + 1];
    FeedingAt(n, j);
  }

  /** One round of the encoding loop: decode capture `j`, then add it. */
  method FeedFrame(env: Env, ghost plan: seq<Event>, start: seq<Event>, ms: int, j: nat,
                   encoder: GifEncoder.Encoder)
    returns (trace: seq<Event>, outcome: Result<GifEncoder.Encoder, Event>)
    requires Progress(env, plan, start) && |start| + 2 <= |plan|
    requires plan[|start|] == Decode(j) && plan[|start| + 1] == AddFrame(j)
    requires encoder == EncoderAfter(env, FirstImage(env), ms, j)
    ensures outcome.Failure? ==>
      trace == Attempt(plan, env) && !NoThrow(env, plan) && outcome.error == trace[|trace| - 1]
    ensures outcome.Success? ==>
      && Progress(env, plan, trace) && |trace| == |start| + 2
      && outcome.value == EncoderAfter(env, FirstImage(env), ms, j + 1)
  {
    var threw;
    trace, threw := Call(env, plan, start, Decode(j));
    if threw { return trace, Failure(Decode(j)); }
    var png := env.decode(j).value;
    trace, threw := Call(env, plan, trace, AddFrame(j));
    if threw { return trace, Failure(AddFrame(j)); }
    EncoderAfterStep(env, FirstImage(env), ms, j);
    return trace, Success(GifEncoder.AddFrame(encoder, png.pixels));
  }

  /** The encoding loop: decode each capture and add it, then finish. */
  method FeedFrames(env: Env, ghost plan: seq<Event>, start: seq<Event>, frames: seq<nat>,
                    ms: int, encoder0: GifEncoder.Encoder)
    returns (trace: seq<Event>, outcome: Result<GifEncoder.Encoder, Event>)
    requires |frames| >= 1 && frames == Range(|frames|)
    requires EncodingLaidOut(plan, |frames|, ms, env)
    requires Progress(env, plan, start) && |start| == 10 + 2 * |frames|
    requires encoder0 == EncoderAfter(env, FirstImage(env), ms, 0)
    ensures trace == Attempt(plan, env)
    ensures !NoThrow(env, plan) ==> outcome == Failure(trace[|trace| - 1])
    ensures NoThrow(env, plan) ==> outcome == Success(EncoderAfter(env, FirstImage(env), ms, |frames|).(finished := true))
  {
    var threw;
    var encoder := encoder0;
    trace := start;
    var j := 0;
    while j < |frames|
      invariant 0 <= j <= |frames|
      invariant |trace| == 10 + 2 * |frames| + 2 * j
      invariant Progress(env, plan, trace)
      invariant encoder == EncoderAfter(env, FirstImage(env), ms, j)
    {
      FeedingLaidOut(plan, |frames|, ms, env, j);
      var step;
      trace, step := FeedFrame(env, plan, trace, ms, j, encoder);
      if step.Failure? { return trace, step; }
      encoder := step.value;
      j := j + 1;
    }
    trace, threw := Call(env, plan, trace, Finish);
    if threw { return trace, Failure(Finish); }
    encoder := GifEncoder.Finish(encoder);
    Completed(env, plan, trace);
    return trace, Success(encoder);
  }

  /** The `try` block of `svgToGif`. */
  method RenderPage(cfg: Config, env: Env, totalFrames: int, frameDelay: Option<int>)
    returns (trace: seq<Event>, outcome: Result<GifEncoder.Encoder, Event>)
    requires totalFrames == Frames(cfg) && frameDelay == FrameDelay(cfg.fps)
    ensures trace == Attempt(Plan(cfg, env), env)
    ensures outcome == BodyResult(cfg, env)
  {
    ghost var plan := Plan(cfg, env);
    if totalFrames >= 1 {
      PlanLayout(cfg, env);
    }
    var threw, frames;
    trace, threw := PreparePage(cfg, env, plan);
    if threw { return trace, Failure(trace[|trace| - 1]); }
    trace, frames, threw := CaptureFrames(env, plan, trace, totalFrames, frameDelay);
    if threw { return trace, Failure(trace[|trace| - 1]); }
    if |frames| == 0 {
      // `PNG.sync.read(frames[0])` on an empty array
      assert plan[5] == ReadMissingFirst;
      trace, threw := Call(env, plan, trace, ReadMissingFirst);
      return trace, Failure(ReadMissingFirst);
    }
    var started;
    trace, started := StartEncoder(env, plan, trace, frames, frameDelay.value);
    if started.Failure? { return trace, started; }
    trace, outcome := FeedFrames(env, plan, trace, frames, frameDelay.value, started.value);
    PlanNeedsFrames(cfg, env);
  }

  /** `svgToGif`: compute the timing, launch, run the page inside
      `try`/`finally`, close. */
  method SvgToGif(cfg: Config, env: Env) returns (run: Run)
    ensures run == Expected(cfg, env)
  {
    var totalFrames := TotalFrames(cfg.durationMs, cfg.fps);
    var frameDelay := FrameDelay(cfg.fps);
    if Throws(env, Launch) {
      return Run([Launch], Failure(Launch));
    }
    var trace, outcome := RenderPage(cfg, env, totalFrames, frameDelay);
    if Throws(env, Close) {
      outcome := Failure(Close);
    }
    return Run([Launch] + trace + [Close], outcome);
  }
}

=== FILE: slack_handlers.dfy ===
/** The Slack handlers of `slack.js` with their effects abstracted: every
    call to Slack, to the file host and to the PNG renderer is recorded,
    and an environment decides which of them throw and what Slack returns. */
module SlackHandlers {
  import opened Wrappers
  import opened ClientCache
  import opened SlackRules

  const PreviewWidth := 1024
  const ZoomWidth := 2048
  const BlockActions := "block_actions"
  const ZoomActionId := "zoom_svg"

  /** The calls a handler makes; each Slack call carries the token of the
      client that makes it, the fetch carries the token it sends. */
  datatype Call =
    | FilesInfo(fileId: Option<string>, token: string)
    | FetchSvg(url: string, token: string)
    | RenderPng(url: string, width: int)   // svgToPng of the SVG fetched from `url`
    | UploadPreview(channel: string, filename: string, threadTs: Option<string>, token: string)
    | PostButtons(channel: string, threadTs: Option<string>, fileUrl: string, buttonValue: string, token: string)
    | UploadZoom(userId: Option<string>, filename: string, token: string)
    | OpenModal(triggerId: Option<string>, imageUrl: string, fileUrl: string, token: string)

  /** Which calls throw, the file `files.info` reports for an id (`None`:
      the response has no file, so reading it throws), and what each zoom
      upload call resolves to. */
  datatype SlackEnv = SlackEnv(
    resolves: Call -> bool,
    info: Option<string> -> Option<SlackFile>,
    uploaded: Call -> UploadResponse
  )

  /** How a handler ended: no client for the team, the file is not an SVG,
      every step done, an error caught by the handler's `catch`, or no team
      id at all. */
  datatype Outcome = NoClient | NotSvg | Done | Caught | NoTeamId

  datatype Handled = Handled(cache: Cache, calls: seq<Call>, outcome: Outcome)

  /** A `file_shared` event. */
  datatype FileShared = FileShared(fileId: Option<string>, channelId: string, eventTs: Option<string>)

  predicate AllResolve(env: SlackEnv, calls: seq<Call>) {
    forall k :: 0 <= k < |calls| ==> env.resolves(calls[k])
  }

  /** Awaiting `plan` call by call until one throws: the calls made. */
  function AttemptCalls(plan: seq<Call>, env: SlackEnv): (done: seq<Call>)
    ensures |done| <= |plan| && done == plan[..|done|]
    ensures AllResolve(env, plan) ==> done == plan
    ensures !AllResolve(env, plan) ==>
      && |done| > 0
      && !env.resolves(done[|done| - 1])
      && AllResolve(env, done[..|done| - 1])
  {
    if |plan| == 0 then []
    else if !env.resolves(plan[0]) then [plan[0]]
    else
      var rest := AttemptCalls(plan[1..], env);
      assert AllResolve(env, plan) ==> AllResolve(env, plan[1..]);
      assert !AllResolve(env, plan) ==> !AllResolve(env, plan[1..]) by {
        if !AllResolve(env, plan) {
          var k :| 0 <= k < |plan| && !env.resolves(plan[k]);
          assert plan[1..][k - 1] == plan[k];
        }
      }
      [plan[0]] + rest
  }

  /** A lookup that went through followed by steps that all went through. */
  lemma ResolvedAfter(env: SlackEnv, info: Call, steps: seq<Call>)
    requires env.resolves(info) && AllResolve(env, steps)
    ensures AttemptCalls(steps, env) == steps && AllResolve(env, [info] + steps)
  {
    var all := [info] + steps;
    forall k | 0 <= k < |all| ensures env.resolves(all[k]) {
      if k > 0 { assert all[k] == steps[k - 1]; }
    }
  }

  /** `event.event_ts || undefined`: the thread the replies go to. */
  function ThreadTs(ev: FileShared): (r: Option<string>)
    ensures r.None? || (Truthy(r) && r == ev.eventTs)
    ensures Truthy(ev.eventTs) <==> r.Some?
  {
    Or(ev.eventTs, None)
  }

  /** The calls after the SVG filter of `handleFileShared`: fetch with the
      stored token, render at the preview width, then (when the file has a
      name) the preview upload and the message with the buttons. */
  function PreviewSteps(ev: FileShared, file: SlackFile, storedToken: string, token: string): (plan: seq<Call>)
    ensures |plan| == if file.name.Some? then 4 else 2
    ensures plan[0] == FetchSvg(file.urlPrivate, storedToken) && plan[1] == RenderPng(file.urlPrivate, PreviewWidth)
    ensures file.name.Some? ==>
      && plan[2] == UploadPreview(ev.channelId, PreviewName(file.name.value), ThreadTs(ev), token)
      && plan[3] == PostButtons(ev.channelId, ThreadTs(ev), file.urlPrivate, file.id, token)
  {
    [FetchSvg(file.urlPrivate, storedToken), RenderPng(file.urlPrivate, PreviewWidth)]
    + if file.name.Some? then
        [ UploadPreview(ev.channelId, PreviewName(file.name.value), ThreadTs(ev), token),
          PostButtons(ev.channelId, ThreadTs(ev), file.urlPrivate, file.id, token) ]
      else []
  }

  /** With one token for both, every preview step but the render carries it. */
  lemma PreviewStepsToken(ev: FileShared, file: SlackFile, token: string, j: nat)
    requires j < |PreviewSteps(ev, file, token, token)| && !PreviewSteps(ev, file, token, token)[j].RenderPng?
    ensures PreviewSteps(ev, file, token, token)[j].token == token
  {
  }

  /** Everything a shared file needs to be previewed once a client with
      `token` was found: `files.info` goes through and returns a named SVG
      file, the team is stored, and the fetch, render, upload and message
      all go through. */
  predicate PreviewGoesThrough(store: Store, env: SlackEnv, ev: FileShared, teamId: TeamId, token: string) {
    && env.resolves(FilesInfo(ev.fileId, token))
    && env.info(ev.fileId).Some?
    && var file := env.info(ev.fileId).value;
    && IsSvgFile(file) && file.name.Some? && teamId in store
    && AllResolve(env, PreviewSteps(ev, file, store[teamId].botToken, token))
  }

  /** `handleFileShared`: look the client up, ask Slack for the file, skip
      anything that is not an SVG, then fetch, render, upload the preview
      and post the buttons; any error after the lookup is caught. */
  function HandleFileShared(cache: Cache, store: Store, env: SlackEnv, ev: FileShared, teamId: TeamId): (r: Handled)
    ensures r.cache == GetClient(cache, store, teamId).cache
    ensures r.outcome == NoClient <==> teamId !in cache && teamId !in store
    ensures r.outcome == NoClient ==> r.calls == []
    ensures r.outcome != NoClient ==>
      |r.calls| > 0 && r.calls[0] == FilesInfo(ev.fileId, GetClient(cache, store, teamId).client.value.token)
    ensures |r.calls| > 1 ==> env.info(ev.fileId).Some? && IsSvgFile(env.info(ev.fileId).value)
    ensures r.outcome == NotSvg ==>
      |r.calls| == 1 && env.info(ev.fileId).Some? && !IsSvgFile(env.info(ev.fileId).value)
    ensures r.outcome == Done ==> |r.calls| == 5 && AllResolve(env, r.calls)
    ensures var look := GetClient(cache, store, teamId);
      look.client.Some? && env.resolves(FilesInfo(ev.fileId, look.client.value.token)) && env.info(ev.fileId).Some? ==>
        (r.outcome == NotSvg <==> !IsSvgFile(env.info(ev.fileId).value))
    ensures r.outcome == Done <==>
      var look := GetClient(cache, store, teamId);
      look.client.Some? && PreviewGoesThrough(store, env, ev, teamId, look.client.value.token)
    ensures r.outcome != NoTeamId
    ensures var look := GetClient(cache, store, teamId);
      look.client.Some? && env.resolves(FilesInfo(ev.fileId, look.client.value.token)) && env.info(ev.fileId).Some?
      && IsSvgFile(env.info(ev.fileId).value) && teamId in store ==>
        r.calls == [FilesInfo(ev.fileId, look.client.value.token)]
                   + AttemptCalls(PreviewSteps(ev, env.info(ev.fileId).value, store[teamId].botToken, look.client.value.token), env)
    ensures var look := GetClient(cache, store, teamId);
      look.client.Some? &&
      (!env.resolves(FilesInfo(ev.fileId, look.client.value.token)) || env.info(ev.fileId).None?
       || !IsSvgFile(env.info(ev.fileId).value) || teamId !in store) ==>
        |r.calls| == 1
  {
    var look := GetClient(cache, store, teamId);
    if look.client.None? then Handled(look.cache, [], NoClient)
    else PreviewWithClient(look.cache, store, env, ev, teamId, look.client.value.token)
  }

  /** `handleFileShared` once a client with `token` was found: ask Slack for
      the file, stop unless it is an SVG, then fetch, render, upload the
      preview and post the buttons, stopping at the first call that throws. */
  function PreviewWithClient(cache: Cache, store: Store, env: SlackEnv, ev: FileShared, teamId: TeamId, token: string): (r: Handled)
    ensures r.cache == cache && |r.calls| > 0 && r.calls[0] == FilesInfo(ev.fileId, token)
    ensures r.outcome == NotSvg || r.outcome == Done || r.outcome == Caught
    ensures |r.calls| > 1 ==> env.info(ev.fileId).Some? && IsSvgFile(env.info(ev.fileId).value)
    ensures r.outcome == NotSvg ==>
      |r.calls| == 1 && env.info(ev.fileId).Some? && !IsSvgFile(env.info(ev.fileId).value)
    ensures r.outcome == Done ==> |r.calls| == 5 && AllResolve(env, r.calls)
    ensures env.resolves(FilesInfo(ev.fileId, token)) && env.info(ev.fileId).Some? ==>
      (r.outcome == NotSvg <==> !IsSvgFile(env.info(ev.fileId).value))
    ensures r.outcome == Done <==> PreviewGoesThrough(store, env, ev, teamId, token)
    ensures (env.resolves(FilesInfo(ev.fileId, token)) && env.info(ev.fileId).Some?
             && IsSvgFile(env.info(ev.fileId).value) && teamId in store) ==>
        r.calls == [FilesInfo(ev.fileId, token)]
                   + AttemptCalls(PreviewSteps(ev, env.info(ev.fileId).value, store[teamId].botToken, token), env)
    ensures (!env.resolves(FilesInfo(ev.fileId, token)) || env.info(ev.fileId).None?
             || !IsSvgFile(env.info(ev.fileId).value) || teamId !in store) ==>
        |r.calls| == 1
  {
    var info := FilesInfo(ev.fileId, token);
    if !env.resolves(info) || env.info(ev.fileId).None? then Handled(cache, [info], Caught)
    else
      var file := env.info(ev.fileId).value;
      if SkipsFile(file) then Handled(cache, [info], NotSvg)
      else if teamId !in store then Handled(cache, [info], Caught)
      else
        var steps := PreviewSteps(ev, file, store[teamId].botToken, token);
        if file.name.Some? && AllResolve(env, steps) then
          ResolvedAfter(env, info, steps);
          Handled(cache, [info] + AttemptCalls(steps, env), Done)
        else Handled(cache, [info] + AttemptCalls(steps, env), Caught)
  }

  /** A preview that went through: the exact calls, the upload named after
      the file with its suffix rewritten, the buttons carrying the file's id
      and URL. */
  lemma PreviewPosted(cache: Cache, store: Store, env: SlackEnv, ev: FileShared, teamId: TeamId)
    requires HandleFileShared(cache, store, env, ev, teamId).outcome == Done
    ensures var r, file, token := HandleFileShared(cache, store, env, ev, teamId), env.info(ev.fileId).value,
      GetClient(cache, store, teamId).client.value.token;
      && IsSvgFile(file) && file.name.Some? && teamId in store
      && r.calls == [ FilesInfo(ev.fileId, token),
                      FetchSvg(file.urlPrivate, store[teamId].botToken),
                      RenderPng(file.urlPrivate, PreviewWidth),
                      UploadPreview(ev.channelId, PreviewName(file.name.value), ThreadTs(ev), token),
                      PostButtons(ev.channelId, ThreadTs(ev), file.urlPrivate, file.id, token) ]
  {
    var file := env.info(ev.fileId).value;
    var token := GetClient(cache, store, teamId).client.value.token;
    var steps := PreviewSteps(ev, file, store[teamId].botToken, token);
    assert AttemptCalls(steps, env) == steps;
  }

  /** Past `files.info`, a shared-file run is the file lookup followed by
      the preview steps up to the first that throws. */
  lemma FileSharedShape(cache: Cache, store: Store, env: SlackEnv, ev: FileShared, teamId: TeamId)
    requires |HandleFileShared(cache, store, env, ev, teamId).calls| > 1
    ensures var look := GetClient(cache, store, teamId);
      && look.client.Some? && env.info(ev.fileId).Some? && teamId in store
      && HandleFileShared(cache, store, env, ev, teamId).calls
           == [FilesInfo(ev.fileId, look.client.value.token)]
              + AttemptCalls(PreviewSteps(ev, env.info(ev.fileId).value, store[teamId].botToken, look.client.value.token), env)
  {
  }

  /** Every upload a shared file leads to is named after the file, with a
      final `.svg` in any case replaced by `_preview.png`. */
  lemma UploadIsRenamed(cache: Cache, store: Store, env: SlackEnv, ev: FileShared, teamId: TeamId, k: nat)
    requires var r := HandleFileShared(cache, store, env, ev, teamId); k < |r.calls| && r.calls[k].UploadPreview?
    ensures var file := env.info(ev.fileId).value;
      && IsSvgFile(file) && file.name.Some?
      && HandleFileShared(cache, store, env, ev, teamId).calls[k].filename == PreviewName(file.name.value)
      && k == 3
  {
    var r := HandleFileShared(cache, store, env, ev, teamId);
    FileSharedShape(cache, store, env, ev, teamId);
    var look := GetClient(cache, store, teamId);
    var steps := PreviewSteps(ev, env.info(ev.fileId).value, store[teamId].botToken, look.client.value.token);
    assert r.calls[k] == steps[k - 1];
  }

  /** With the cache in step with the store, every call of a shared-file
      run authenticates with the team's stored token. */
  lemma CurrentTokenThroughout(cache: Cache, store: Store, env: SlackEnv, ev: FileShared, teamId: TeamId, k: nat)
    requires TokensCurrent(cache, store)
    requires var r := HandleFileShared(cache, store, env, ev, teamId); k < |r.calls| && !r.calls[k].RenderPng?
    ensures teamId in store && HandleFileShared(cache, store, env, ev, teamId).calls[k].token == store[teamId].botToken
  {
    var r := HandleFileShared(cache, store, env, ev, teamId);
    var look := GetClient(cache, store, teamId);
    assert teamId in store && look.client.Some? && look.client.value.token == store[teamId].botToken by {
      LookupKeepsTokensCurrent(cache, store, teamId);
    }
    if k > 0 {
      FileSharedShape(cache, store, env, ev, teamId);
      var token := store[teamId].botToken;
      var steps := PreviewSteps(ev, env.info(ev.fileId).value, token, token);
      assert r.calls[k] == steps[k - 1];
      PreviewStepsToken(ev, env.info(ev.fileId).value, token, k - 1);
    }
  }

  /** After a reinstall that does not clear the cache, a shared SVG is
      looked up with the old token while it is fetched with the new one. */
  lemma StaleClientMixesTokens(env: SlackEnv, ev: FileShared)
    requires env.info(ev.fileId) == Some(SlackFile("F1", Some(SvgMimeType), Some("a.svg"), "https://files/a.svg"))
    requires forall c :: env.resolves(c)
    ensures var (c, s) := ReinstallAsWritten(map["T1" := Client("xoxb-old")], map["T1" := Team("xoxb-old")], "T1", Team("xoxb-new"));
      var r := HandleFileShared(c, s, env, ev, "T1");
      && r.outcome == Done
      && r.calls[0].token == "xoxb-old"
      && r.calls[1].token == "xoxb-new"
  {
    var (c, s) := ReinstallAsWritten(map["T1" := Client("xoxb-old")], map["T1" := Team("xoxb-old")], "T1", Team("xoxb-new"));
    var file := env.info(ev.fileId).value;
    assert !SkipsFile(file);
    var steps := PreviewSteps(ev, file, "xoxb-new", "xoxb-old");
    assert AttemptCalls(steps, env) == steps;
  }

  // ---------------------------------------------------------------------
  // handleZoom
  // ---------------------------------------------------------------------

  /** The calls after the file lookup of `handleZoom`: fetch with the stored
      token, render at the zoom width, then (when the payload has a user and
      the file a name) the upload to the user and the modal. */
  function ZoomSteps(p: Payload, env: SlackEnv, file: SlackFile, storedToken: string, token: string): (plan: seq<Call>)
    ensures |plan| == if p.user.Some? && file.name.Some? then 4 else 2
    ensures plan[0] == FetchSvg(file.urlPrivate, storedToken) && plan[1] == RenderPng(file.urlPrivate, ZoomWidth)
    ensures p.user.Some? && file.name.Some? ==>
      && plan[2] == UploadZoom(p.user.value.id, ZoomName(file.name.value), token)
      && plan[3] == OpenModal(p.triggerId, ImageUrl(env.uploaded(plan[2])), file.urlPrivate, token)
  {
    [FetchSvg(file.urlPrivate, storedToken), RenderPng(file.urlPrivate, ZoomWidth)]
    + if p.user.Some? && file.name.Some? then
        var upload := UploadZoom(p.user.value.id, ZoomName(file.name.value), token);
        [ upload, OpenModal(p.triggerId, ImageUrl(env.uploaded(upload)), file.urlPrivate, token) ]
      else []
  }

  /** Everything a zoom needs to open its modal once a client with `token`
      was found for team `tid`: `files.info` goes through and returns a
      named file, the payload has a user, the team is stored, and the
      fetch, render, upload and modal all go through. */
  predicate ZoomGoesThrough(store: Store, env: SlackEnv, p: Payload, fileId: Option<string>, tid: TeamId, token: string) {
    && env.resolves(FilesInfo(fileId, token))
    && env.info(fileId).Some?
    && var file := env.info(fileId).value;
    && p.user.Some? && file.name.Some? && tid in store
    && AllResolve(env, ZoomSteps(p, env, file, store[tid].botToken, token))
  }

  /** `handleZoom`: the team comes from the payload's fallback chain; then
      as for a shared file, with the upload going to the user and a modal
      showing the uploaded image. */
  function HandleZoom(cache: Cache, store: Store, env: SlackEnv, p: Payload, fileId: Option<string>): (r: Handled)
    ensures ZoomTeamId(p).None? <==> r.outcome == NoTeamId
    ensures ZoomTeamId(p).None? ==> r.cache == cache && r.calls == []
    ensures ZoomTeamId(p).Some? ==> r.cache == GetClient(cache, store, ZoomTeamId(p).value).cache
    ensures r.outcome == NoClient ==> r.calls == []
    ensures r.outcome == Done ==> |r.calls| == 5 && AllResolve(env, r.calls) && r.calls[4].OpenModal?
    ensures r.outcome == Done ==> r.calls[4].imageUrl == ImageUrl(env.uploaded(r.calls[3])) && r.calls[4].imageUrl != ""
    ensures r.outcome != NotSvg
    ensures ZoomTeamId(p).Some? ==>
      (r.outcome == NoClient <==> GetClient(cache, store, ZoomTeamId(p).value).client.None?)
    ensures r.outcome == Done <==>
      && ZoomTeamId(p).Some?
      && var look := GetClient(cache, store, ZoomTeamId(p).value);
      && look.client.Some?
      && ZoomGoesThrough(store, env, p, fileId, ZoomTeamId(p).value, look.client.value.token)
  {
    var tid := ZoomTeamId(p);
    if tid.None? then Handled(cache, [], NoTeamId)
    else ZoomForTeam(cache, store, env, p, fileId, tid.value)
  }

  /** `handleZoom` once the team id is known. */
  function ZoomForTeam(cache: Cache, store: Store, env: SlackEnv, p: Payload, fileId: Option<string>, tid: TeamId): (r: Handled)
    ensures r.cache == GetClient(cache, store, tid).cache
    ensures r.outcome == NoClient ==> r.calls == []
    ensures r.outcome == Done ==> |r.calls| == 5 && AllResolve(env, r.calls) && r.calls[4].OpenModal?
    ensures r.outcome == Done ==> r.calls[4].imageUrl == ImageUrl(env.uploaded(r.calls[3])) && r.calls[4].imageUrl != ""
    ensures r.outcome != NotSvg && r.outcome != NoTeamId
    ensures r.outcome == NoClient <==> GetClient(cache, store, tid).client.None?
    ensures r.outcome == Done <==>
      var look := GetClient(cache, store, tid);
      look.client.Some? && ZoomGoesThrough(store, env, p, fileId, tid, look.client.value.token)
    ensures var look := GetClient(cache, store, tid);
      (look.client.Some? && env.resolves(FilesInfo(fileId, look.client.value.token))
       && env.info(fileId).Some? && tid in store) ==>
        r.calls == [FilesInfo(fileId, look.client.value.token)]
                   + AttemptCalls(ZoomSteps(p, env, env.info(fileId).value, store[tid].botToken, look.client.value.token), env)
    ensures var look := GetClient(cache, store, tid);
      (look.client.Some? && (!env.resolves(FilesInfo(fileId, look.client.value.token))
                             || env.info(fileId).None? || tid !in store)) ==>
        |r.calls| == 1
  {
    var look := GetClient(cache, store, tid);
    if look.client.None? then Handled(look.cache, [], NoClient)
    else ZoomWithClient(look.cache, store, env, p, fileId, tid, look.client.value.token)
  }

  /** `handleZoom` once a client was found: look the file up, then fetch,
      render, upload to the user and open the modal. */
  function ZoomWithClient(cache: Cache, store: Store, env: SlackEnv, p: Payload, fileId: Option<string>,
                          tid: TeamId, token: string): (r: Handled)
    ensures r.cache == cache && |r.calls| >= 1 && r.calls[0] == FilesInfo(fileId, token)
    ensures r.outcome == Done || r.outcome == Caught
    ensures r.outcome == Done ==>
      && |r.calls| == 5 && AllResolve(env, r.calls) && env.info(fileId).Some?
      && r.calls[4] == OpenModal(p.triggerId, ImageUrl(env.uploaded(r.calls[3])), env.info(fileId).value.urlPrivate, token)
    ensures r.outcome == Done <==> ZoomGoesThrough(store, env, p, fileId, tid, token)
    ensures (env.resolves(FilesInfo(fileId, token)) && env.info(fileId).Some? && tid in store) ==>
      r.calls == [FilesInfo(fileId, token)]
                 + AttemptCalls(ZoomSteps(p, env, env.info(fileId).value, store[tid].botToken, token), env)
    ensures (!env.resolves(FilesInfo(fileId, token)) || env.info(fileId).None? || tid !in store) ==>
      |r.calls| == 1
  {
    var info := FilesInfo(fileId, token);
    if !env.resolves(info) || env.info(fileId).None? || tid !in store then Handled(cache, [info], Caught)
    else
      var file := env.info(fileId).value;
      var steps := ZoomSteps(p, env, file, store[tid].botToken, token);
      if p.user.Some? && file.name.Some? && AllResolve(env, steps) then
        ResolvedAfter(env, info, steps);
        Handled(cache, [info] + AttemptCalls(steps, env), Done)
      else Handled(cache, [info] + AttemptCalls(steps, env), Caught)
  }

  /** Past `files.info`, a zoom is the file lookup followed by the zoom
      steps up to the first that throws: a `views.open` that throws comes
      after the PNG was already uploaded to the user. */
  lemma ZoomShape(cache: Cache, store: Store, env: SlackEnv, p: Payload, fileId: Option<string>)
    requires |HandleZoom(cache, store, env, p, fileId).calls| > 1
    ensures && ZoomTeamId(p).Some?
            && var tid := ZoomTeamId(p).value;
            && var look := GetClient(cache, store, tid);
            && look.client.Some? && env.info(fileId).Some? && tid in store
            && HandleZoom(cache, store, env, p, fileId).calls
                 == [FilesInfo(fileId, look.client.value.token)]
                    + AttemptCalls(ZoomSteps(p, env, env.info(fileId).value, store[tid].botToken, look.client.value.token), env)
  {
  }

  /** A zoom that went through uploads the file renamed with `_zoom.png` to
      the user who clicked. */
  lemma ZoomUploadsToUser(cache: Cache, store: Store, env: SlackEnv, p: Payload, fileId: Option<string>)
    requires HandleZoom(cache, store, env, p, fileId).outcome == Done
    ensures var file := env.info(fileId).value;
      && p.user.Some? && file.name.Some?
      && HandleZoom(cache, store, env, p, fileId).calls[3]
           == UploadZoom(p.user.value.id, ZoomName(file.name.value), GetClient(cache, store, ZoomTeamId(p).value).client.value.token)
  {
    var tid := ZoomTeamId(p);
    var look := GetClient(cache, store, tid.value);
    var file := env.info(fileId).value;
    var steps := ZoomSteps(p, env, file, store[tid.value].botToken, look.client.value.token);
    assert AttemptCalls(steps, env) == steps;
  }

  // ---------------------------------------------------------------------
  // handleInteraction
  // ---------------------------------------------------------------------

  /** The values of the `zoom_svg` actions, in array order. */
  function ZoomValues(actions: seq<Action>): (r: seq<Option<string>>)
    ensures |r| <= |actions|
  {
    if |actions| == 0 then []
    else
      var last := actions[|actions| - 1];
      ZoomValues(actions[..|actions| - 1]) + if last.actionId == Some(ZoomActionId) then [last.value] else []
  }

  lemma {:induction false} ZoomValuesConcat(a: seq<Action>, b: seq<Action>)
    ensures ZoomValues(a + b) == ZoomValues(a) + ZoomValues(b)
    decreases |b|
  {
    if |b| > 0 {
      assert (a + b)[..|a + b| - 1] == a + b[..|b| - 1];
      ZoomValuesConcat(a, b[..|b| - 1]);
    } else {
      assert a + b == a;
    }
  }

  /** Exactly the zoom actions are dispatched: one value per `zoom_svg`
      action, and every dispatched value belongs to such an action. */
  lemma {:induction false} ZoomValuesAreZoomActions(actions: seq<Action>, v: Option<string>)
    ensures v in ZoomValues(actions) <==>
      exists k :: 0 <= k < |actions| && actions[k].actionId == Some(ZoomActionId) && actions[k].value == v
  {
    if |actions| > 0 {
      var init := actions[..|actions| - 1];
      ZoomValuesAreZoomActions(init, v);
      assert forall k :: 0 <= k < |init| ==> init[k] == actions[k];
    }
  }

  /** A payload without zoom actions dispatches nothing. */
  lemma {:induction false} NoZoomActionNoDispatch(actions: seq<Action>)
    requires forall k :: 0 <= k < |actions| ==> actions[k].actionId != Some(ZoomActionId)
    ensures ZoomValues(actions) == []
  {
    if |actions| > 0 {
      NoZoomActionNoDispatch(actions[..|actions| - 1]);
    }
  }

  /** Running `handleZoom` for each value in turn, the cache threaded
      through. */
  function ZoomEach(cache: Cache, store: Store, env: SlackEnv, p: Payload, values: seq<Option<string>>): (r: (Cache, seq<Call>))
  {
    if |values| == 0 then (cache, [])
    else
      var (c, calls) := ZoomEach(cache, store, env, p, values[..|values| - 1]);
      var z := HandleZoom(c, store, env, p, values[|values| - 1]);
      (z.cache, calls + z.calls)
  }

  /** The cache after an interaction's zooms: at most the zoom team gains an
      entry; every entry there before is kept. */
  lemma {:induction false} ZoomEachCache(cache: Cache, store: Store, env: SlackEnv, p: Payload, values: seq<Option<string>>)
    ensures var c := ZoomEach(cache, store, env, p, values).0;
      && (forall k :: k in cache ==> k in c && c[k] == cache[k])
      && (forall k :: k in c && k !in cache ==> ZoomTeamId(p) == Some(k))
  {
    if |values| > 0 {
      ZoomEachCache(cache, store, env, p, values[..|values| - 1]);
    }
  }

  /** What `handleInteraction` did: the cache after it, the calls of all the
      zooms, the values zoomed, and whether it threw. */
  datatype Interaction = Interaction(cache: Cache, calls: seq<Call>, zoomed: seq<Option<string>>, rejected: bool)

  /** Reference definition of `handleInteraction`: only `block_actions`
      payloads are handled; a missing action list throws; otherwise one
      zoom per `zoom_svg` action, in order. */
  function Interact(cache: Cache, store: Store, env: SlackEnv, p: Payload): Interaction {
    if p.kind != Some(BlockActions) then Interaction(cache, [], [], false)
    else if p.actions.None? then Interaction(cache, [], [], true)
    else
      var values := ZoomValues(p.actions.value);
      var (c, calls) := ZoomEach(cache, store, env, p, values);
      Interaction(c, calls, values, false)
  }

  /** `handleInteraction`, action by action. */
  method HandleInteraction(cache: Cache, store: Store, env: SlackEnv, p: Payload) returns (r: Interaction)
    ensures r == Interact(cache, store, env, p)
  {
    if p.kind != Some(BlockActions) {
      return Interaction(cache, [], [], false);
    }
    if p.actions.None? {
      return Interaction(cache, [], [], true);
    }
    var actions := p.actions.value;
    var c, calls, values := cache, [], [];
    var i := 0;
    while i < |actions|
      invariant 0 <= i <= |actions|
      invariant values == ZoomValues(actions[..i])
      invariant (c, calls) == ZoomEach(cache, store, env, p, values)
    {
      if actions[i].actionId == Some(ZoomActionId) {
        var z := HandleZoom(c, store, env, p, actions[i].value);
        values, c, calls := values + [actions[i].value], z.cache, calls + z.calls;
        assert values[..|values| - 1] == ZoomValues(actions[..i]);
      }
      assert actions[..i + 1][..i] == actions[..i];
      i := i + 1;
    }
    assert actions[..i] == actions;
    r := Interaction(c, calls, values, false);
  }

  /** Payloads of any other type are ignored entirely. */
  lemma OtherPayloadsIgnored(cache: Cache, store: Store, env: SlackEnv, p: Payload)
    requires p.kind != Some(BlockActions)
    ensures Interact(cache, store, env, p) == Interaction(cache, [], [], false)
  {
  }

  /** An interaction keeps every cached client and adds at most one, for the
      zoom's team. */
  lemma InteractionCache(cache: Cache, store: Store, env: SlackEnv, p: Payload)
    ensures var c := Interact(cache, store, env, p).cache;
      && (forall k :: k in cache ==> k in c && c[k] == cache[k])
      && (forall k :: k in c && k !in cache ==> ZoomTeamId(p) == Some(k))
  {
    if p.kind == Some(BlockActions) && p.actions.Some? {
      ZoomEachCache(cache, store, env, p, ZoomValues(p.actions.value));
    }
  }
}

=== FILE: slack_rules.dfy ===
/** The pure rules around the Slack handlers of `slack.js`: which shared
    files are treated as SVG, how the uploaded PNG is named, and the
    JavaScript `||` fallbacks for the zoom's team id and image URL. */
module SlackRules {
  import opened Wrappers
  import opened Text

  const SvgMimeType := "image/svg+xml"
  const SvgSuffix := ".svg"
  const PreviewSuffix := "_preview.png"
  const ZoomSuffix := "_zoom.png"
  const PlaceholderUrl := "https://via.placeholder.com/800"

  /** The `file` object `files.info` returns; `None` is a missing field. */
  datatype SlackFile = SlackFile(id: string, mimetype: Option<string>, name: Option<string>, urlPrivate: string)

  // ---------------------------------------------------------------------
  // The SVG filter of handleFileShared
  // ---------------------------------------------------------------------

  /** A file is an SVG when its MIME type is exactly the SVG type or its
      name ends in `.svg`, in lower case. */
  predicate IsSvgFile(f: SlackFile) {
    f.mimetype == Some(SvgMimeType) || (f.name.Some? && EndsWith(f.name.value, SvgSuffix))
  }

  /** The handler's early-return test, evaluated the JavaScript way: a
      missing name makes `file.name?.endsWith(...)` undefined, hence falsy. */
  function SkipsFile(f: SlackFile): (skip: bool)
    ensures skip <==> !IsSvgFile(f)
    ensures f.mimetype == Some(SvgMimeType) ==> !skip
    ensures f.name.None? && f.mimetype != Some(SvgMimeType) ==> skip
  {
    var nameTest: Option<bool> := if f.name.Some? then Some(EndsWith(f.name.value, SvgSuffix)) else None;
    f.mimetype != Some(SvgMimeType) && !(nameTest == Some(true))
  }

  // ---------------------------------------------------------------------
  // The `.replace(/\.svg$/i, ...)` rewrite of the uploaded file's name
  // ---------------------------------------------------------------------

  /** Replace a final `.svg`, in any letter case, by `replacement`; any
      other name is returned as it is. */
  function ReplaceSvgSuffix(name: string, replacement: string): (r: string)
    ensures !EndsWithFolded(name, SvgSuffix) ==> r == name
    ensures EndsWithFolded(name, SvgSuffix) ==>
      && |r| == |name| - |SvgSuffix| + |replacement|
      && r[..|name| - |SvgSuffix|] == name[..|name| - |SvgSuffix|]
      && r[|name| - |SvgSuffix|..] == replacement
  {
    if EndsWithFolded(name, SvgSuffix) then name[..|name| - |SvgSuffix|] + replacement else name
  }

  /** The preview upload's file name. */
  function PreviewName(name: string): (r: string)
    ensures EndsWithFolded(name, SvgSuffix) ==> r == name[..|name| - |SvgSuffix|] + PreviewSuffix
    ensures !EndsWithFolded(name, SvgSuffix) ==> r == name
    ensures EndsWith(r, PreviewSuffix) || r == name
  {
    ReplaceSvgSuffix(name, PreviewSuffix)
  }

  /** The zoom upload's file name. */
  function ZoomName(name: string): (r: string)
    ensures EndsWithFolded(name, SvgSuffix) ==> r == name[..|name| - |SvgSuffix|] + ZoomSuffix
    ensures !EndsWithFolded(name, SvgSuffix) ==> r == name
    ensures EndsWith(r, ZoomSuffix) || r == name
  {
    ReplaceSvgSuffix(name, ZoomSuffix)
  }

  /** A stem followed by `.svg` written in any letter case becomes the stem
      followed by the replacement. */
  lemma RewriteKeepsStem(stem: string, ext: string, replacement: string)
    requires |ext| == 4 && LowerAll(ext) == SvgSuffix
    ensures ReplaceSvgSuffix(stem + ext, replacement) == stem + replacement
  {
    var name := stem + ext;
    assert name[|name| - 4..] == ext;
    assert name[..|name| - 4] == stem;
  }

  /** A replacement that does not itself end in `.svg` makes the rewrite
      idempotent: the preview and zoom names are not rewritten again. */
  lemma RewriteIdempotent(name: string, replacement: string)
    requires !EndsWithFolded(replacement, SvgSuffix) && |replacement| >= |SvgSuffix|
    ensures var once := ReplaceSvgSuffix(name, replacement);
      ReplaceSvgSuffix(once, replacement) == once
  {
    var once := ReplaceSvgSuffix(name, replacement);
    if EndsWithFolded(name, SvgSuffix) {
      var stem := name[..|name| - 4];
      assert once == stem + replacement;
      assert once[|once| - 4..] == replacement[|replacement| - 4..];
      assert !EndsWithFolded(once, SvgSuffix);
    }
  }

  lemma PreviewAndZoomIdempotent(name: string)
    ensures PreviewName(PreviewName(name)) == PreviewName(name)
    ensures ZoomName(ZoomName(name)) == ZoomName(name)
  {
    assert PreviewSuffix[8..] == ".png";
    assert LowerAll(".png") != SvgSuffix by { assert LowerAll(".png")[1] == 'p'; }
    RewriteIdempotent(name, PreviewSuffix);
    assert ZoomSuffix[5..] == ".png";
    RewriteIdempotent(name, ZoomSuffix);
  }

  /** Every name the filter accepts by its suffix is rewritten: a lower-case
      `.svg` is in particular a `.svg` in some letter case. */
  lemma AcceptedNamesAreRewritten(name: string)
    requires EndsWith(name, SvgSuffix)
    ensures PreviewName(name) == name[..|name| - 4] + PreviewSuffix
    ensures ZoomName(name) == name[..|name| - 4] + ZoomSuffix
  {
    var ext := name[|name| - 4..];
    assert LowerAll(ext) == ext by {
      forall k | 0 <= k < 4 ensures LowerAll(ext)[k] == ext[k] {
        assert ext[k] == SvgSuffix[k];
      }
    }
    assert name == name[..|name| - 4] + ext;
    RewriteKeepsStem(name[..|name| - 4], ext, PreviewSuffix);
    RewriteKeepsStem(name[..|name| - 4], ext, ZoomSuffix);
  }

  /** The filter is case-sensitive while the rewrite is not: `LOGO.SVG`
      without the SVG MIME type is skipped, yet the rewrite would handle it,
      and with the MIME type it is processed and renamed. */
  lemma UpperCaseSuffix(url: string)
    ensures !IsSvgFile(SlackFile("F1", None, Some("LOGO.SVG"), url))
    ensures IsSvgFile(SlackFile("F1", Some(SvgMimeType), Some("LOGO.SVG"), url))
    ensures PreviewName("LOGO.SVG") == "LOGO_preview.png"
  {
    assert "LOGO.SVG"[5] != SvgSuffix[1];
    RewriteKeepsStem("LOGO", ".SVG", PreviewSuffix);
    assert "LOGO" + ".SVG" == "LOGO.SVG";
  }

  /** Only the final suffix is touched. */
  lemma OnlyFinalSuffix()
    ensures PreviewName("a.svg.svg") == "a.svg_preview.png"
    ensures PreviewName("a.svg.png") == "a.svg.png"
    ensures PreviewName("svg") == "svg"
  {
    assert PreviewName("a.svg.svg") == "a.svg_preview.png" by {
      assert LowerAll(SvgSuffix) == SvgSuffix by {
        forall k | 0 <= k < 4 ensures Lower(SvgSuffix[k]) == SvgSuffix[k] {
          assert !IsAsciiUpper(SvgSuffix[k]);
        }
      }
      RewriteKeepsStem("a.svg", SvgSuffix, PreviewSuffix);
      assert "a.svg" + SvgSuffix == "a.svg.svg";
    }
    assert !EndsWithFolded("a.svg.png", SvgSuffix) by {
      assert LowerAll("a.svg.png"[5..])[1] == 'p';
    }
  }

  // ---------------------------------------------------------------------
  // JavaScript `||` over possibly missing strings
  // ---------------------------------------------------------------------

  /** A possibly missing string is truthy when present and non-empty. */
  predicate Truthy(v: Option<string>) {
    v.Some? && v.value != ""
  }

  /** `a || b`: the left operand when it is truthy, else the right one. */
  function Or(a: Option<string>, b: Option<string>): (r: Option<string>)
    ensures r == a || r == b
    ensures Truthy(r) <==> Truthy(a) || Truthy(b)
    ensures Truthy(a) ==> r == a
  {
    if Truthy(a) then a else b
  }

  /** The value of `vs[0] || vs[1] || ... || vs[n-1]`: the first truthy
      operand, or the last operand when none is. */
  function FirstTruthy(vs: seq<Option<string>>): (r: Option<string>)
    requires |vs| > 0
    ensures r in vs
    ensures Truthy(r) <==> exists k :: 0 <= k < |vs| && Truthy(vs[k])
    ensures forall k :: 0 <= k < |vs| && Truthy(vs[k]) && (forall j :: 0 <= j < k ==> !Truthy(vs[j])) ==> r == vs[k]
    ensures (forall k :: 0 <= k < |vs| ==> !Truthy(vs[k])) ==> r == vs[|vs| - 1]
  {
    if |vs| == 1 || Truthy(vs[0]) then vs[0]
    else
      var r := FirstTruthy(vs[1..]);
      assert forall k :: 1 <= k < |vs| ==> vs[k] == vs[1..][k - 1];
      r
  }

  /** `||` groups to the left, and the grouping does not matter. */
  lemma OrChain(a: Option<string>, b: Option<string>, c: Option<string>)
    ensures Or(Or(a, b), c) == Or(a, Or(b, c)) == FirstTruthy([a, b, c])
  {
  }

  // ---------------------------------------------------------------------
  // The interaction payload and the zoom fallbacks
  // ---------------------------------------------------------------------

  datatype PayloadTeam = PayloadTeam(id: Option<string>)
  datatype PayloadUser = PayloadUser(id: Option<string>, teamId: Option<string>)
  datatype Action = Action(actionId: Option<string>, value: Option<string>)

  /** The parsed `block_actions` payload, as far as the handlers read it. */
  datatype Payload = Payload(
    kind: Option<string>,
    team: Option<PayloadTeam>,
    user: Option<PayloadUser>,
    actions: Option<seq<Action>>,
    triggerId: Option<string>
  )

  /** `payload.team?.id`. */
  function TeamIdOf(p: Payload): Option<string> {
    if p.team.Some? then p.team.value.id else None
  }

  /** `payload.user?.team_id`. */
  function UserTeamIdOf(p: Payload): Option<string> {
    if p.user.Some? then p.user.value.teamId else None
  }

  /** The team a zoom is served for: the payload's team id when it is
      truthy, otherwise the user's team id. */
  function ZoomTeamId(p: Payload): (r: Option<string>)
    ensures Truthy(TeamIdOf(p)) ==> r == TeamIdOf(p)
    ensures !Truthy(TeamIdOf(p)) ==> r == UserTeamIdOf(p)
    ensures r == FirstTruthy([TeamIdOf(p), UserTeamIdOf(p)])
  {
    Or(TeamIdOf(p), UserTeamIdOf(p))
  }

  datatype FileRef = FileRef(urlPrivate: Option<string>)
  datatype CompletedUpload = CompletedUpload(files: Option<seq<FileRef>>)

  /** What `files.uploadV2` resolves to, as far as the zoom reads it. */
  datatype UploadResponse = UploadResponse(files: Option<seq<CompletedUpload>>, file: Option<FileRef>)

  /** `upload.files?.[0]?.files?.[0]?.url_private`. */
  function NestedUrl(u: UploadResponse): Option<string> {
    if u.files.Some? && |u.files.value| > 0 then
      var done := u.files.value[0];
      if done.files.Some? && |done.files.value| > 0 then done.files.value[0].urlPrivate else None
    else None
  }

  /** `upload.file?.url_private`. */
  function FileUrl(u: UploadResponse): Option<string> {
    if u.file.Some? then u.file.value.urlPrivate else None
  }

  /** The modal's image: the nested upload URL, else the file URL, else the
      placeholder; always a non-empty string. */
  function ImageUrl(u: UploadResponse): (r: string)
    ensures r != ""
    ensures Truthy(NestedUrl(u)) ==> r == NestedUrl(u).value
    ensures !Truthy(NestedUrl(u)) && Truthy(FileUrl(u)) ==> r == FileUrl(u).value
    ensures !Truthy(NestedUrl(u)) && !Truthy(FileUrl(u)) ==> r == PlaceholderUrl
  {
    Or(Or(NestedUrl(u), FileUrl(u)), Some(PlaceholderUrl)).value
  }

  /** The image URL is the first truthy value of the three-way chain. */
  lemma ImageUrlIsFirstTruthy(u: UploadResponse)
    ensures Some(ImageUrl(u)) == FirstTruthy([NestedUrl(u), FileUrl(u), Some(PlaceholderUrl)])
  {
    OrChain(NestedUrl(u), FileUrl(u), Some(PlaceholderUrl));
  }

  /** A response with no usable URL falls back to the placeholder; an empty
      nested URL does not win over the file URL. */
  lemma ImageUrlExamples()
    ensures ImageUrl(UploadResponse(None, None)) == PlaceholderUrl
    ensures ImageUrl(UploadResponse(Some([]), Some(FileRef(Some("u2"))))) == "u2"
    ensures ImageUrl(UploadResponse(Some([CompletedUpload(Some([FileRef(Some(""))]))]), Some(FileRef(Some("u2"))))) == "u2"
    ensures ImageUrl(UploadResponse(Some([CompletedUpload(Some([FileRef(Some("u1"))]))]), Some(FileRef(Some("u2"))))) == "u1"
  {
  }
}

=== FILE: text.dfy ===
/** Character classes used by the source's regular expressions, with the
    exact meaning ECMAScript gives them. */
module Text {

  /** ECMAScript `\s`: the WhiteSpace and LineTerminator code points. */
  predicate IsSpace(c: char) {
    var n := c as int;
    || n == 0x09 || n == 0x0A || n == 0x0B || n == 0x0C || n == 0x0D
    || n == 0x20 || n == 0xA0 || n == 0x1680
    || (0x2000 <= n <= 0x200A)
    || n == 0x2028 || n == 0x2029 || n == 0x202F || n == 0x205F
    || n == 0x3000 || n == 0xFEFF
  }

  predicate IsAsciiUpper(c: char) {
    'A' <= c <= 'Z'
  }

  /** Case folding used by a regular expression with the `i` flag and no `u`
      flag, restricted to what the source's patterns can observe: every
      pattern letter is ASCII, and ECMAScript never folds a non-ASCII code
      point onto an ASCII one in this mode, so only `A`..`Z` change. */
  function Lower(c: char): (r: char)
    ensures IsAsciiUpper(c) ==> r as int == c as int + 32
    ensures !IsAsciiUpper(c) ==> r == c
    ensures !IsAsciiUpper(r)
  {
    if IsAsciiUpper(c) then (c as int + 32) as char else c
  }

  function LowerAll(s: string): (r: string)
    ensures |r| == |s|
    ensures forall k :: 0 <= k < |s| ==> r[k] == Lower(s[k])
  {
    seq(|s|, k requires 0 <= k < |s| => Lower(s[k]))
  }

  /** Folding changes letters only: whitespace and punctuation are kept. */
  lemma LowerKeepsNonLetters(c: char)
    ensures Lower(Lower(c)) == Lower(c)
    ensures IsSpace(Lower(c)) <==> IsSpace(c)
    ensures Lower(c) == '>' <==> c == '>'
    ensures Lower(c) == ':' <==> c == ':'
  {
  }

  /** `s` ends with `suffix`, compared code point by code point
      (`String.prototype.endsWith`). */
  predicate EndsWith(s: string, suffix: string) {
    |suffix| <= |s| && s[|s| - |suffix|..] == suffix
  }

  /** `s` ends with `suffix` under the `i` flag's folding; `suffix` is
      written in lower case. */
  predicate EndsWithFolded(s: string, suffix: string) {
    |suffix| <= |s| && LowerAll(s[|s| - |suffix|..]) == suffix
  }
}

=== FILE: wrappers.dfy ===
/** Option and result types shared by the other modules. */
module Wrappers {

  /** A value that may be absent: a JavaScript `undefined`/`null` field, a
      missing map entry, or a numeric result that is not a finite integer. */
  datatype Option<+T> = None | Some(value: T) {

    /** The carried value, or `default` when there is none. */
    function GetOr(default: T): T {
      match this
      case Some(v) => v
      case None => default
    }
  }

  /** Either a value or the error that ended the computation. */
  datatype Result<+R, +E> = Success(value: R) | Failure(error: E)
}
